=== FILE: README.md ===
# waybar-calendar: the meeting-selection core in Dafny

waybar-calendar is a calendar status-bar widget for Waybar. It fetches a
user's Microsoft 365 meetings and prints one line of JSON for the bar. That
line holds the most relevant meeting with a coloured urgency indicator, and a
tooltip holding the day's schedule. A click on the widget opens the current
meeting's Teams or web link, or starts re-authentication when the cached
token is no longer usable.

This project models the decision logic behind that. It covers:

- `calendar.dfy`: the event record, the urgency status of an event at an
  instant, and the first-match filter of `GetNextMeeting`.
- `selection.dfy`: the best-event selector. It walks the tiers current,
  urgent, soon and upcoming. Within each tier it prefers blocking events, and
  it never chooses a past event.
- `pango.dfy`: the escaping of `&`, `<` and `>` for Pango markup.
- `waybar.dfy`: the status-bar text, its class and alt, and the 50-byte
  truncation. It also covers the three tooltip builders, the auth-error
  branch of a status-bar run, and the link chosen by the open action.
- `click.dfy`: the click handler. This is its own copy of the selector, the
  `isAuthError` classifier, the shell command that opens a link, and the
  choice between opening a meeting, retrying with a forced token refresh and
  re-authenticating.
- `auth.dfy`: token validity, the default configuration and its migration,
  the credential choice, and the cache / non-interactive / fetch sequence that
  produces an access token.
- `text.dfy`, `wrappers.dfy`, `durations.dfy`: models of the Go string
  helpers used (`strings.Contains`, `ReplaceAll`, `ToLower`, `Join`, `%d`),
  `Option`/`Result`, and the minute and hour constants.

## Conventions

- **Time.** Instants and durations are integers counting nanoseconds, the
  unit of Go's `time.Duration`. The Go code reads the wall clock afresh in
  every `GetStatus`, `time.Until` and selector call. The model takes one
  instant `now` as a parameter for the whole operation.
- **Text.** Each `char` of a Dafny string stands for one byte, so `|s|` is
  Go's `len(s)` and `s[..n]` is `s[:n]`. The status indicators are written as
  the bytes of their UTF-8 encoding. Four of them take 4 bytes; the black
  circle of a past event takes 3.
- **Collaborators.** Clock and date formatting and the terminal styles are
  functions held in a `Renderer` value, and nothing is assumed about them.
  `IsBlockingEvent` is a parameter `blocking: Event -> bool`.
- **Effects.** Files, the identity provider and the Graph API are given by
  what they returned. The config file and the token file are given by what
  reading and decoding them produced. `GetToken` is given by its result. The
  token file is a `TokenFile` object, and the fetch path updates it.
- **Status when the meeting ends.** The code calls an event past only when
  `now` is strictly after its end (calendar.go:270). So a meeting is not past
  at the very instant it ends: it is still `urgent`. `Calendar.StatusAtEnd`
  states this boundary.

## Model

| member | source | states |
|---|---|---|
| Calendar.Label | internal/calendar/calendar.go:268-285 | the status is always one of the five labels past, current, urgent, soon, upcoming |
| Calendar.TimeUntil | internal/calendar/calendar.go:264-266 | the time until an event is its start minus now, and is negative exactly when the start has passed |
| Calendar.GetStatus | internal/calendar/calendar.go:268-285 | past iff now is strictly after the end; current iff start < now < end, both strict; urgent is at most 5 minutes away; soon is over 5 and at most 15 minutes away; upcoming is over 15 minutes away and so strictly in the future |
| Calendar.StatusAtStart | internal/calendar/calendar.go:270-279 | at the instant a meeting with positive length starts, it is urgent, not current |
| Calendar.StatusAtEnd | internal/calendar/calendar.go:270-279 | at the instant a well-formed meeting ends, it is urgent, not past |
| Calendar.FutureBands | internal/calendar/calendar.go:277-284 | before the start, the status follows the time until start alone, with inclusive 5- and 15-minute bounds (both directions) |
| Calendar.NextMeeting | internal/calendar/calendar.go:163-170 | the result is the first event in input order that starts strictly later or is strictly running; it is none iff no event qualifies |
| Calendar.GetNextMeeting | internal/calendar/calendar.go:157-171 | a fetch error is returned unchanged; otherwise the chosen meeting is one of the fetched events |
| Calendar.NextMeetingNotNowNotPast | internal/calendar/calendar.go:163-170 | the next meeting never starts exactly now, and a well-formed one is never past |
| Calendar.NextMeetingSkipsStartingNow | internal/calendar/calendar.go:163-170 | a meeting that starts exactly now is urgent, yet the next-meeting filter skips it |
| Selection.Rank | internal/widget/widget.go:608 | every non-past status sits at its own position in the tier order current, urgent, soon, upcoming; past sits after all of them |
| Selection.UpcomingGuardRedundant | internal/widget/widget.go:613-632 | the extra "starts after now" guard of the upcoming tier never rejects an event the status test accepts |
| Selection.Scan | internal/widget/widget.go:613-632 | one scan returns the first accepted event at or after the given position; it returns nothing iff no event from there on is accepted |
| Selection.TierPick | internal/widget/widget.go:611-632 | a tier yields nothing iff no event has that status; otherwise it yields the first blocking event of the tier, or the first event of the tier when none is blocking |
| Selection.SearchTiers | internal/widget/widget.go:611-635 | whatever the tier loop returns is one of the inputs, and its status is one of the tiers visited |
| Selection.SelectBestEvent | internal/widget/widget.go:602-636 | no events give nothing; a chosen event is one of the inputs and is never past |
| Selection.SearchTiersFirstPresent | internal/widget/widget.go:611-635 | the tier loop returns the pick of the first tier that holds an event, and nothing iff no tier does |
| Selection.SelectBestNoneIffAllPast | internal/widget/widget.go:602-636 | the selector returns nothing exactly when every event is past, in particular for an empty list |
| Selection.SelectBestChoice | internal/widget/widget.go:602-636 | the chosen event is an input and is not past; its tier is the earliest tier of any non-past input; it is that tier's first blocking event, or its first event when none is blocking |
| Selection.SelectBestPrefersBlocking | internal/widget/widget.go:613-621 | if the chosen tier holds a blocking event, the chosen event is blocking |
| Text.ReplaceByte | internal/widget/widget.go:480-482 | replacing a byte by a text without it removes every occurrence, and introduces only bytes of the input or of the replacement |
| Text.ContainsToLower | cmd/click.go:133-137 | lower-casing a message keeps every occurrence of an already lower-case word |
| Pango.EscapePangoMarkup | internal/widget/widget.go:479-484 | the escaped text contains no `<` and no `>` |
| Pango.EscapeAppend | internal/widget/widget.go:479-484 | escaping distributes over concatenation |
| Pango.EscapeSingle | internal/widget/widget.go:479-484 | a single byte escapes to its own entity: `&amp;`, `&lt;`, `&gt;`, or itself |
| Pango.ReplaceByteAppend | internal/widget/widget.go:480-482 | one replacement pass distributes over concatenation |
| Pango.ReplaceByteAbsent | internal/widget/widget.go:480-482 | a pass over text without its byte changes nothing |
| Pango.EscapeIsOnePass | internal/widget/widget.go:479-484 | because `&` is replaced first, the three passes equal one pass that replaces each byte by its entity; nothing is escaped twice |
| Pango.UnescapeStep | internal/widget/widget.go:479-484 | decoding an escaped byte followed by anything decodes that byte first |
| Pango.UnescapeEscape | internal/widget/widget.go:479-484 | decoding the three entities recovers the original text, so escaping loses nothing |
| Pango.EscapeLength | internal/widget/widget.go:479-484 | the escaped length is len(s) + 4·#`&` + 3·#`<` + 3·#`>` |
| Waybar.Icon | internal/widget/widget.go:426-466 | each status's indicator is 4 bytes (3 for past) and never starts with `[` |
| Waybar.InDuration | internal/widget/widget.go:449-453 | "in Nm" under an hour, "in HhMm" from an hour on, each number being a truncated division of the duration |
| Waybar.InDurationParts | internal/widget/widget.go:449-453 | under an hour the minute count is below 60; from an hour on, hours·60 plus the remaining minutes is the whole minute count and the remaining minutes are below 60; from 10 minutes to an hour the text is 6 bytes |
| Waybar.UpcomingFull | internal/widget/widget.go:449-453 | the untruncated upcoming text starts with the blue indicator, a space and the subject, and is 5 + len(subject) + 3 + len(duration text) bytes |
| Text.DecimalTwoDigits | internal/widget/widget.go:450 | a minute count from 10 to 99 prints as two bytes |
| Waybar.ShortText | internal/widget/widget.go:427-465 | the text of a current, urgent, soon or past meeting starts with the indicator and a space; it is at most 53 bytes; a text of at most 50 bytes is kept whole; the 45-byte slice is always in bounds |
| Waybar.UpcomingTextAsWritten | internal/widget/widget.go:448-456 | as written, the upcoming branch panics exactly when the full text exceeds 50 bytes and the subject is shorter than 40 bytes; otherwise it agrees with the corrected text |
| Waybar.UpcomingTruncationPanics | internal/widget/widget.go:449-456 | every subject of 37 to 39 bytes panics while the meeting is between 15 minutes and an hour away |
| Waybar.UpcomingPanicExample | internal/widget/widget.go:448-456 | a 37-byte subject 20 minutes away is upcoming, is unchanged by escaping, and makes the branch panic |
| Waybar.UpcomingText | internal/widget/widget.go:448-456 | with the slice bounded by the subject's length, the upcoming text starts with the blue indicator, never exceeds 50 bytes, and a text that fits is kept whole |
| Waybar.DisplayText | internal/widget/widget.go:426-466 | the text of every status starts with its indicator and a space, and is at most 53 bytes; a current, urgent, soon or past meeting gets `Waybar.ShortText`, and an upcoming one gets the corrected cut of `Waybar.UpcomingText` |
| Waybar.BaseOutput | internal/widget/widget.go:410-477 | no meeting gives "No meetings" with class and alt "no-meeting"; otherwise class and alt are the status label, there is no tooltip, and the text is "[T] " for a Teams meeting followed by the `Waybar.DisplayText` of the meeting's status, its escaped subject and the time until it starts, so it starts with "[T] " iff the meeting is on Teams; the upcoming text uses the corrected cut |
| Waybar.GenerateWaybarOutput | internal/widget/widget.go:410-477 | the step-by-step switch and Teams prefix produce exactly the output described by BaseOutput, with the corrected upcoming cut |
| Waybar.ScheduleTitle | internal/widget/widget.go:585-592 | a schedule title has no `<` or `>`; a Teams meeting gets " (Teams)" and no location; another meeting gets " @ " and its escaped location when it has one |
| Waybar.ScheduleLine | internal/widget/widget.go:564-595 | a schedule line starts with the status indicator and a space and ends with the schedule title |
| Waybar.EventLines | internal/widget/widget.go:563-596 | one schedule line per event, in input order |
| Waybar.AppendScheduleLines | internal/widget/widget.go:563-596 | the append loop adds exactly the event lines, in order, after the lines so far |
| Waybar.ScheduleTooltipLines | internal/widget/widget.go:556-597 | the schedule tooltip has the two header lines first and 1 or len(events) more lines |
| Waybar.ChosenTooltipLines | internal/widget/widget.go:500-549 | the chosen meeting's tooltip has the two header lines; for no events it ends with "No meetings today"; otherwise it has one line per event in order, then a blank line and the click hint, and ends with the Teams line for a Teams meeting and the browser line for any other |
| Waybar.ScheduleTooltipShape | internal/widget/widget.go:555-600 | the tooltip starts with the two header lines, then has "No meetings today" or one line per event in input order |
| Waybar.GenerateTooltipForSchedule | internal/widget/widget.go:555-600 | the tooltip is the schedule lines joined by newlines |
| Waybar.GenerateWaybarOutputForSchedule | internal/widget/widget.go:486-553 | no chosen meeting gives the "No meetings today" output; otherwise the chosen meeting's output with the schedule as tooltip, ending with the click hint that suits a Teams or a web meeting when the day is not empty; the text uses the corrected upcoming cut |
| Waybar.PlainTitle | internal/widget/widget.go:670-676 | an extended-tooltip title starts with the unescaped subject; a Teams meeting gets " (Teams)"; another gets " @ " and its location when it has one |
| Waybar.TodayLine | internal/widget/widget.go:649-680 | a line of today's part starts with the status indicator and a space and ends with the plain title |
| Waybar.DayLabel | internal/widget/widget.go:700-711 | an event of today shows only its clock time; one of tomorrow shows "Tomorrow " and the clock time; any other shows the day-and-time format |
| Waybar.UpcomingLine | internal/widget/widget.go:700-740 | an upcoming line starts with the status indicator and a space and ends with the plain title |
| Waybar.UpcomingLines | internal/widget/widget.go:693-741 | one upcoming line per event, in input order |
| Waybar.UpcomingSection | internal/widget/widget.go:689-742 | no upcoming events give the single line "No upcoming meetings"; the section never has more than six lines |
| Waybar.ExtendedLines | internal/widget/widget.go:638-745 | the extended tooltip is the styled today title, a blank line, "No meetings today" or one today line per event in order, a blank line, the styled upcoming title, a blank line, and the upcoming section |
| Waybar.UpcomingSectionShape | internal/widget/widget.go:689-742 | at most five upcoming events are listed, in input order; a sixth line "... and n-5 more events" appears exactly when there are more than five |
| Waybar.TodayLines | internal/widget/widget.go:648-681 | one today line per event, in input order |
| Waybar.AppendTodayLines | internal/widget/widget.go:648-681 | the loop adds one line per event of today, in order |
| Waybar.AppendUpcomingLines | internal/widget/widget.go:693-741 | the loop that stops at the sixth event adds exactly the upcoming section |
| Waybar.RenderExtendedTooltip | internal/widget/widget.go:638-745 | the extended tooltip is the today part, the upcoming header and the upcoming section, joined by newlines |
| Waybar.FetchErrorOutput | internal/widget/widget.go:115-140 | a fetch error whose message contains "authentication", "token" or "login" (case-sensitive) gives "Auth Required"; any other gives "Calendar Error" with the message as tooltip |
| Waybar.RunWaybarWithRefresh | internal/widget/widget.go:90-165 | a failed force-refresh service gives "Auth Error"; a failed fetch gives the fetch-error output; otherwise no chosen event gives "No upcoming meetings" with the schedule tooltip, and a chosen event gives its schedule output, whose text uses the corrected upcoming cut |
| Waybar.MeetingURL | internal/widget/widget.go:269-277 | the Teams link of a Teams meeting is preferred, then a non-empty web link; there is an error exactly when neither exists |
| Waybar.OpenMeeting | internal/widget/widget.go:269-292 | the launched command ends with the chosen link; it exists exactly on linux, windows and darwin when a link exists |
| Click.ClickSearch | cmd/click.go:169-193 | the click handler's tier loop, written with the two scans of each tier inline, returns an input whose status is one of the remaining tiers |
| Click.SelectBestEventForClick | cmd/click.go:160-194 | no events give nothing; a chosen event is one of the inputs and is never past |
| Click.ClickSearchAgrees | cmd/click.go:160-194 | from any tier on, the click handler's tier loop with its scans inline returns what the widget's tier loop returns |
| Click.ClickSelectorEquivalent | cmd/click.go:160-194 | the click handler's selector and the widget's selector choose the same event for every input |
| Click.IsAuthError | cmd/click.go:129-132 | no error is not an auth error |
| Click.WidgetAuthImpliesClickAuth | cmd/click.go:129-138 | every message the status bar reports as "Auth Required" is an auth error for the click handler too |
| Click.ClassifiersDisagree | cmd/click.go:133-137 | a message that lower-cases to contain "unauthorized" but has no `c`, `k` or `g` byte is an auth error for the click handler only |
| Click.UnauthorizedDisagrees | cmd/click.go:133-137 | "Unauthorized" is an auth error for the click handler but not for the status bar |
| Click.AuthRequiredIsAuthError | internal/auth/auth.go:196-198 | the cache-only error, with any prefix or suffix, is an auth error for both the status bar and the click handler |
| Click.ClickTarget | cmd/click.go:64-74 | a click has a link to open iff an event was chosen, it is current or urgent, and it has a Teams or web link; the link is the one openMeeting chooses |
| Click.OpenMeetingLink | cmd/click.go:140-149 | the Teams-app-first command is used iff the link contains "teams.microsoft.com", and it ends with the fallback that opens the quoted link with `xdg-open` in the browser; any other link is opened by exactly `xdg-open "<url>"`; either command passes the link in quotes |
| Click.ActOn | cmd/click.go:63-77 | a click opens something only for a current or urgent chosen event with a link, and then runs the command for that event's link; it never re-authenticates |
| Click.SoonOrLaterOpensNothing | cmd/click.go:65-74 | when no event is current or urgent, a click opens nothing |
| Click.RunClickWithForceRefresh | cmd/click.go:80-127 | the retry re-authenticates iff creating the widget or the refreshing service fails, or the fetch still fails with an auth error; it opens a link only after a successful fetch |
| Click.RunClick | cmd/click.go:28-78 | a failed widget re-authenticates; an auth error from the service or fetch leads to the forced-refresh retry; any other error does nothing; a successful fetch acts on the chosen event |
| Auth.IsTokenValid | internal/auth/auth.go:132-138 | no token is invalid; a token is valid iff it expires strictly later than five minutes from now |
| Auth.TokenValidEarlier | internal/auth/auth.go:137 | a token valid now was valid at every earlier instant |
| Auth.TokenAtMarginInvalid | internal/auth/auth.go:137 | a token expiring exactly five minutes from now is invalid |
| Auth.Migrate | internal/auth/auth.go:71-77 | a configuration without a client id gets the public client id, the common tenant, the local redirect URI and the public flag, and keeps its secret; one with a client id is unchanged |
| Auth.MigrateIdempotent | internal/auth/auth.go:71-77 | migrating twice is migrating once |
| Auth.LoadedConfig | internal/auth/auth.go:50-80 | a missing file gives the public defaults; read and parse errors are errors; a loaded configuration always has a client id |
| Auth.LoadConfig | internal/auth/auth.go:50-80 | overwriting the decoded fields one by one yields the configuration LoadedConfig describes |
| Auth.CredentialFor | internal/auth/auth.go:140-173 | a config error is wrapped as "failed to load config"; a public client gets a browser credential and any other client a device-code one, both with the configured client and tenant |
| Auth.GetCredential | internal/auth/auth.go:140-173 | loading the configuration and then building the credential gives the credential CredentialFor describes |
| Auth.LoadTokenStore | internal/auth/auth.go:98-114 | a missing token file is no token and no error; a decoded file is its token; read and parse failures are errors |
| Auth.TokenFile.ValidCached | internal/auth/auth.go:185-192 | the cache is usable iff the file decodes to a token that is valid now, and then it is that token |
| Auth.TokenFile.Save | internal/auth/auth.go:116-130 | a successful write is read back as the same token; a write that fails before the file is opened leaves it as it was; one that fails after `os.WriteFile` truncated the file leaves a file that no longer decodes, so no cached token is valid afterwards |
| Auth.TokenFile.Clear | internal/auth/auth.go:227-234 | a missing file is not an error; a successful removal leaves no cached token valid at any instant |
| Auth.GetAccessToken | internal/auth/auth.go:183-225 | without force refresh, a valid cached token is returned as it is and the file is unchanged; otherwise, when interactive login is off, the result is the "authentication required" error; credential and fetch errors are returned, the fetch error with its prefix; a fetched token is returned unchanged and cached as a "Bearer" token expiring when it expires, when the file is writable; a failed cache write does not change the result, but one that fails after truncation leaves a file that no longer decodes |

## Left out

- Fetching events through the Microsoft Graph SDK is not modelled. This
  includes the calendar-view range building and `GetTodaysEvents` /
  `GetUpcomingEvents` (calendar.go:72-155). They are network calls into a
  foreign library, so the model takes their results as inputs.
- `parseMicrosoftDateTime` is not modelled, because it depends on
  `time.Parse` and time-zone conversion. `extractTeamsLink` is not modelled,
  because it depends on regular expressions and `url.Parse`. Events arrive
  with their times and links already set.
- `IsBlockingEvent` is not part of this model: it is not defined in any of
  the files modelled. It is the parameter `blocking`, about which nothing is
  assumed.
- `NewCalendarServiceWithRefresh` and `NewCalendarServiceWithOptions` are not
  part of this model. Whether creating the widget or a service failed is an
  input.
- The interactive terminal UI is not modelled: the bubbletea model with
  `Update`, `View` and the tick and fetch commands, `renderMeeting`, and the
  lipgloss styles (widget.go:167-400). The styles used by the extended
  tooltip are opaque `Renderer` functions.
- Process spawning, JSON encoding and printing are left out. The model
  returns the command line or the output value instead of running or
  printing it. The runtime platform is the `goos` parameter of
  `Waybar.OpenMeeting`.
- Reading and writing the config and token files, creating directories, and
  `azidentity` credential construction are inputs (what they returned). The
  failure text of a token write or removal is a fixed string here. Go wraps
  the underlying OS error, and no caller inspects that text.
- The Cobra commands (root, widget, waybar, tooltip, setup, logout, reauth,
  validate, debug) are not modelled: they parse flags, print and delegate.
  `runReauth` is the `Reauth` outcome of the click handler. `SaveConfig` is
  not modelled.
- Clock readings are not modelled separately. The Go code calls `time.Now()`
  afresh in each call; the model uses one `now` for a whole operation.
  `Format("15:04")` and the today/tomorrow date comparison are opaque
  `Renderer` functions.
- `Duration.Minutes()` and `Hours()` return float64. Their `int(...)`
  truncation is modelled as integer division, which agrees for the positive
  durations of upcoming meetings.
- Click.IsAuthError: `strings.ToLower` is modelled on ASCII letters only. A
  message whose non-ASCII letters lower-case to one of the four words is not
  covered.
- Waybar.DisplayText: uses the corrected cut of `Waybar.UpcomingText` for an
  upcoming meeting. The Go code panics where `Waybar.UpcomingTextAsWritten`
  is None (see Findings); elsewhere the two texts are equal.
- Waybar.BaseOutput: builds its text with `Waybar.DisplayText`, so it returns
  an output where Go's generateWaybarOutput panics on the upcoming cut.
- Waybar.GenerateWaybarOutput: uses the corrected upcoming cut
  `subject[..Min(40, |subject|)]` where widget.go:455 slices `subject[:40]`
  and panics for a subject shorter than 40 bytes.
- Waybar.GenerateWaybarOutputForSchedule: takes its text from
  `Waybar.GenerateWaybarOutput`, so it returns an output where the Go code
  panics on the upcoming cut.
- Waybar.RunWaybarWithRefresh: for a chosen upcoming meeting, its output uses
  the corrected cut where the Go run panics on the upcoming cut.
- Waybar.GenerateWaybarOutput: the Go switch spells out the urgent, soon,
  current and past cases separately. The model has one branch for all four,
  choosing the indicator through `Icon`; the four cases differ only in the
  indicator.

## Findings

| source | as written | input that shows it | evidently intended | confidence | as-written member | corrected member |
|---|---|---|---|---|---|---|
| internal/widget/widget.go:454-456 | an upcoming meeting's text over 50 bytes is cut with `subject[:40]` whether or not the subject has 40 bytes | a 37-byte subject 20 minutes away: "🔵 " (5 bytes) + 37 bytes + " (in 20m)" (9 bytes) = 51 bytes, so `subject[:40]` is out of range and Go panics (`Waybar.UpcomingPanicExample`); every 37- to 39-byte subject between 15 and 60 minutes away does the same (`Waybar.UpcomingTruncationPanics`) | cut the subject to at most 40 bytes, which keeps the text within 50 bytes | high; not executed | Waybar.UpcomingTextAsWritten | Waybar.UpcomingText |

=== FILE: auth.dfy ===
/**
 * The decisions of internal/auth/auth.go: token validity, the configuration
 * defaults and their migration, the credential choice, and the
 * cache / non-interactive / fetch sequence that yields an access token.
 *
 * The files are abstract: what reading a file and decoding its JSON produced
 * is an input, and the token file is an object whose content the fetch path
 * replaces. The identity provider is the outcome of its GetToken call.
 */
module Auth {
  import opened Wrappers
  import opened Durations

  const PublicClientID: string := "14d82eec-204b-4c2f-b7e8-296a70dab67e"
  const CommonTenant: string := "common"
  const RedirectURI: string := "http://localhost:12345/auth/callback"

  /** The message of the error returned when only the cache may be used and it is not valid. */
  const AuthRequiredMessage: string :=
    "authentication" + " required: no valid cached token" + " and interactive login disabled"

  datatype Config = Config(clientID: string, clientSecret: string, tenantID: string, redirectURI: string, usePublic: bool)

  datatype TokenStore = TokenStore(accessToken: string, refreshToken: string, expiresAt: int, tokenType: string)

  /** azcore.AccessToken. */
  datatype AccessToken = AccessToken(token: string, expiresOn: int)

  /** IsTokenValid: present and not expiring within the next five minutes. */
  function IsTokenValid(token: Option<TokenStore>, now: int): (r: bool)
    ensures token.None? ==> !r
    ensures token.Some? ==> (r <==> now + 5 * Minute < token.value.expiresAt)
  {
    token.Some? && now + 5 * Minute < token.value.expiresAt
  }

  /** A token that is valid now was valid at every earlier instant. */
  lemma TokenValidEarlier(token: Option<TokenStore>, earlier: int, now: int)
    requires earlier <= now && IsTokenValid(token, now)
    ensures IsTokenValid(token, earlier)
  {
  }

  /** A token expiring exactly five minutes from now is already invalid. */
  lemma TokenAtMarginInvalid(t: TokenStore, now: int)
    requires t.expiresAt == now + 5 * Minute
    ensures !IsTokenValid(Some(t), now)
  {
  }

  /** The public-client configuration used when there is none on disk. */
  const DefaultConfig: Config := Config(PublicClientID, "", CommonTenant, RedirectURI, true)

  /** What reading config.json produced. */
  datatype ConfigFile =
    | NoConfigFile                                   // os.IsNotExist
    | UnreadableConfig(readError: string)            // any other read error
    | ConfigContents(decoded: Result<Config, string>) // the outcome of json.Unmarshal

  /** The migration rule: a configuration without a client id becomes a public-client one. */
  function Migrate(c: Config): (r: Config)
    ensures r.clientID != ""
    ensures c.clientID != "" ==> r == c
    ensures c.clientID == "" ==> r == DefaultConfig.(clientSecret := c.clientSecret)
  {
    if c.clientID == "" then c.(clientID := PublicClientID, tenantID := CommonTenant, redirectURI := RedirectURI, usePublic := true)
    else c
  }

  /** Migrating twice is migrating once. */
  lemma MigrateIdempotent(c: Config)
    ensures Migrate(Migrate(c)) == Migrate(c)
  {
  }

  /** The outcome of LoadConfig for each state of the file. */
  function LoadedConfig(file: ConfigFile): (r: Result<Config, string>)
    ensures r.Success? ==> r.value.clientID != ""
    ensures file.NoConfigFile? ==> r == Success(DefaultConfig)
    ensures r.Failure? <==> file.UnreadableConfig? || (file.ConfigContents? && file.decoded.Failure?)
  {
    match file
    case NoConfigFile => Success(DefaultConfig)
    case UnreadableConfig(err) => Failure("failed to read config file: " + err)
    case ConfigContents(Failure(err)) => Failure("failed to parse config: " + err)
    case ConfigContents(Success(c)) => Success(Migrate(c))
  }

  /** LoadConfig: the decoded configuration's fields are overwritten one by one during migration. */
  method LoadConfig(file: ConfigFile) returns (r: Result<Config, string>)
    ensures r == LoadedConfig(file)
  {
    match file
    case NoConfigFile =>
      return Success(Config(PublicClientID, "", CommonTenant, RedirectURI, true));
    case UnreadableConfig(err) =>
      return Failure("failed to read config file: " + err);
    case ConfigContents(decoded) =>
      if decoded.Failure? {
        return Failure("failed to parse config: " + decoded.error);
      }
      var config := decoded.value;
      if config.clientID == "" {
        config := config.(clientID := PublicClientID);
        config := config.(tenantID := CommonTenant);
        config := config.(redirectURI := RedirectURI);
        config := config.(usePublic := true);
      }
      return Success(config);
  }

  /** The kind of credential GetCredential builds. */
  datatype Credential =
    | InteractiveBrowser(clientID: string, tenantID: string, redirectURL: string)
    | DeviceCode(clientID: string, tenantID: string)

  /** GetCredential: a browser credential for a public client, a device-code one otherwise. */
  function CredentialFor(config: Result<Config, string>, creationError: Option<string>): (r: Result<Credential, string>)
    ensures config.Failure? ==> r == Failure("failed to load config: " + config.error)
    ensures config.Success? && creationError.None? ==>
      r.Success? && (r.value.InteractiveBrowser? <==> config.value.usePublic)
      && r.value.clientID == config.value.clientID && r.value.tenantID == config.value.tenantID
    ensures config.Success? && creationError.Some? ==> r.Failure?
  {
    match config
    case Failure(err) => Failure("failed to load config: " + err)
    case Success(c) =>
      if c.usePublic then
        match creationError
        case Some(err) => Failure("failed to create interactive browser credential: " + err)
        case None => Success(InteractiveBrowser(c.clientID, c.tenantID, c.redirectURI))
      else
        match creationError
        case Some(err) => Failure("failed to create credential: " + err)
        case None => Success(DeviceCode(c.clientID, c.tenantID))
  }

  /** What reading token.json produced. */
  datatype TokenFileState =
    | NoTokenFile
    | UnreadableToken(readError: string)
    | TokenContents(decoded: Result<TokenStore, string>)

  /** LoadTokenStore: no file is no token and no error. */
  function LoadTokenStore(state: TokenFileState): (r: Result<Option<TokenStore>, string>)
    ensures state.NoTokenFile? ==> r == Success(None)
    ensures state.TokenContents? && state.decoded.Success? ==> r == Success(Some(state.decoded.value))
    ensures r.Failure? <==> state.UnreadableToken? || (state.TokenContents? && state.decoded.Failure?)
  {
    match state
    case NoTokenFile => Success(None)
    case UnreadableToken(err) => Failure("failed to read token file: " + err)
    case TokenContents(Failure(err)) => Failure("failed to parse token: " + err)
    case TokenContents(Success(t)) => Success(Some(t))
  }

  /** The token cache on disk. */
  class TokenFile {
    var state: TokenFileState
    /** Whether SaveTokenStore would succeed. */
    var writable: bool
    /**
     * How a failing SaveTokenStore fails: None when it fails before the file
     * is opened (creating the directory, opening the file), so the file is
     * left as it was; Some(e) when os.WriteFile has already truncated the
     * file, which then no longer decodes and reads back with parse error e.
     */
    var truncatedBy: Option<string>

    constructor (state: TokenFileState, writable: bool, truncatedBy: Option<string>)
      ensures this.state == state && this.writable == writable && this.truncatedBy == truncatedBy
    {
      this.state := state;
      this.writable := writable;
      this.truncatedBy := truncatedBy;
    }

    /** The cached token GetAccessToken may use, if it is valid at `now`. */
    function ValidCached(now: int): (r: Option<TokenStore>)
      reads this
      ensures r.Some? ==> state == TokenContents(Success(r.value)) && IsTokenValid(r, now)
      ensures r.None? <==> !(state.TokenContents? && state.decoded.Success?
                             && IsTokenValid(Some(state.decoded.value), now))
    {
      var loaded := LoadTokenStore(state);
      if loaded.Success? && IsTokenValid(loaded.value, now) then loaded.value else None
    }

    /**
     * SaveTokenStore: a successful write is read back as the same token. A
     * failed write either leaves the file as it was or, once truncated, leaves
     * a file that no longer decodes, so no cached token is valid afterwards.
     */
    method Save(t: TokenStore) returns (err: Option<string>)
      modifies this`state
      ensures writable ==> err.None? && state == TokenContents(Success(t))
      ensures !writable && truncatedBy.None? ==> err.Some? && state == old(state)
      ensures !writable && truncatedBy.Some? ==> err.Some? && state == TokenContents(Failure(truncatedBy.value))
      ensures !writable && truncatedBy.Some? ==> forall now :: ValidCached(now).None?
    {
      if writable {
        state := TokenContents(Success(t));
        err := None;
      } else {
        if truncatedBy.Some? {
          state := TokenContents(Failure(truncatedBy.value));
        }
        err := Some("failed to write token file");
      }
    }

    /** ClearTokens: a missing file is not an error; after a successful clear no cached token is valid. */
    method Clear() returns (err: Option<string>)
      modifies this`state
      ensures old(state).NoTokenFile? ==> err.None? && state == old(state)
      ensures !old(state).NoTokenFile? && writable ==> err.None? && state == NoTokenFile
      ensures !old(state).NoTokenFile? && !writable ==> err.Some? && state == old(state)
      ensures err.None? ==> forall now :: ValidCached(now).None?
    {
      if state.NoTokenFile? {
        err := None;
      } else if writable {
        state := NoTokenFile;
        err := None;
      } else {
        err := Some("failed to remove token file");
      }
    }
  }

  /** GetCredential: load the configuration, then build the credential. */
  method GetCredential(config: ConfigFile, creationError: Option<string>) returns (r: Result<Credential, string>)
    ensures r == CredentialFor(LoadedConfig(config), creationError)
  {
    var loaded := LoadConfig(config);
    r := CredentialFor(loaded, creationError);
  }

  /**
   * GetAccessTokenWithOptionsAndForceRefresh. `config` and `creationError`
   * are what GetCredential sees; `fetched` is what the credential's GetToken
   * returns. The file is written only on a successful fetch, and a failed
   * write does not change the result, though it may leave the file damaged.
   */
  method GetAccessToken(file: TokenFile, config: ConfigFile, creationError: Option<string>,
                        fetched: Result<AccessToken, string>,
                        allowInteractive: bool, forceRefresh: bool, now: int)
    returns (r: Result<AccessToken, string>)
    modifies file`state
    ensures !forceRefresh && old(file.ValidCached(now)).Some? ==>
      var t := old(file.ValidCached(now)).value;
      r == Success(AccessToken(t.accessToken, t.expiresAt)) && file.state == old(file.state)
    ensures (forceRefresh || old(file.ValidCached(now)).None?) && !allowInteractive ==>
      r == Failure(AuthRequiredMessage) && file.state == old(file.state)
    ensures (forceRefresh || old(file.ValidCached(now)).None?) && allowInteractive ==>
      var cred := CredentialFor(LoadedConfig(config), creationError);
      (cred.Failure? ==> r == Failure(cred.error) && file.state == old(file.state))
      && (cred.Success? && fetched.Failure? ==>
            r == Failure("failed to get access token: " + fetched.error) && file.state == old(file.state))
      && (cred.Success? && fetched.Success? ==>
            r == fetched
            && file.state == (if file.writable
                              then TokenContents(Success(TokenStore(fetched.value.token, "", fetched.value.expiresOn, "Bearer")))
                              else if file.truncatedBy.Some? then TokenContents(Failure(file.truncatedBy.value))
                              else old(file.state)))
  {
    if !forceRefresh {
      var loaded := LoadTokenStore(file.state);
      if loaded.Success? && IsTokenValid(loaded.value, now) {
        var t := loaded.value.value;
        return Success(AccessToken(t.accessToken, t.expiresAt));
      }
    }
    if !allowInteractive {
      return Failure(AuthRequiredMessage);
    }
    var credential := GetCredential(config, creationError);
    if credential.Failure? {
      return Failure(credential.error);
    }
    if fetched.Failure? {
      return Failure("failed to get access token: " + fetched.error);
    }
    var token := fetched.value;
    var store := TokenStore(token.token, "", token.expiresOn, "Bearer");
    var saveError := file.Save(store);
    // a failed save only prints a warning
    return Success(token);
  }
}

=== FILE: calendar.dfy ===
/**
 * The calendar entry and its time-derived status (internal/calendar/calendar.go).
 *
 * Timestamps and durations are integers counting nanoseconds, the unit of Go's
 * time.Duration. The Go code reads the wall clock inside every call; here the
 * current instant is the parameter `now`.
 */
module Calendar {
  import opened Wrappers
  import opened Durations

  /** One calendar entry; start and end are instants in nanoseconds. */
  datatype Event = Event(
    subject: string,
    start: int,
    end: int,
    location: string,
    webLink: string,
    teamsLink: string,
    isTeams: bool,
    organizer: string,
    attendees: seq<string>,
    body: string)

  /** An event whose end does not precede its start. */
  predicate WellFormed(e: Event)
  {
    e.start <= e.end
  }

  /** The five urgency labels GetStatus can produce. */
  datatype Status = Past | Current | Urgent | Soon | Upcoming

  /** The label string the Go code returns and compares. */
  function Label(s: Status): (r: string)
    ensures r in {"past", "current", "urgent", "soon", "upcoming"}
  {
    match s
    case Past => "past"
    case Current => "current"
    case Urgent => "urgent"
    case Soon => "soon"
    case Upcoming => "upcoming"
  }

  /** GetTimeUntil: time.Until(Start); negative once the start has passed. */
  function TimeUntil(e: Event, now: int): (d: int)
    ensures now + d == e.start
    ensures d < 0 <==> e.start < now
  {
    e.start - now
  }

  /**
   * GetStatus. The comparisons are Go's strict After/Before, so an event that
   * starts or ends exactly at `now` is neither past nor current.
   */
  function GetStatus(e: Event, now: int): (s: Status)
    ensures s == Past <==> now > e.end
    ensures s == Current <==> e.start < now < e.end
    ensures s == Urgent ==> TimeUntil(e, now) <= 5 * Minute
    ensures s == Soon ==> 5 * Minute < TimeUntil(e, now) <= 15 * Minute
    ensures s == Upcoming ==> TimeUntil(e, now) > 15 * Minute && e.start > now
  {
    if now > e.end then Past
    else if now > e.start && now < e.end then Current
    else if TimeUntil(e, now) <= 5 * Minute then Urgent
    else if TimeUntil(e, now) <= 15 * Minute then Soon
    else Upcoming
  }

  /** Boundary: a meeting at the very instant it starts is urgent, not current. */
  lemma StatusAtStart(e: Event)
    requires e.start < e.end
    ensures GetStatus(e, e.start) == Urgent
  {
  }

  /** Boundary: a meeting at the very instant it ends is urgent, not past. */
  lemma StatusAtEnd(e: Event)
    requires WellFormed(e)
    ensures GetStatus(e, e.end) == Urgent
  {
  }

  /**
   * Before a well-formed event starts, its status is decided by the time
   * until its start alone, with inclusive 5- and 15-minute bounds.
   */
  lemma FutureBands(e: Event, now: int)
    requires WellFormed(e) && now < e.start
    ensures GetStatus(e, now) == Urgent <==> TimeUntil(e, now) <= 5 * Minute
    ensures GetStatus(e, now) == Soon <==> 5 * Minute < TimeUntil(e, now) <= 15 * Minute
    ensures GetStatus(e, now) == Upcoming <==> 15 * Minute < TimeUntil(e, now)
  {
  }

  /** The filter of GetNextMeeting: strictly in the future, or strictly running. */
  predicate IsNextCandidate(e: Event, now: int)
  {
    e.start > now || (e.start < now && e.end > now)
  }

  /** The first-match loop of GetNextMeeting over the fetched events. */
  function NextMeeting(events: seq<Event>, now: int): (r: Option<Event>)
    ensures r.Some? ==> exists k :: (0 <= k < |events| && events[k] == r.value
                                      && IsNextCandidate(events[k], now)
                                      && forall j :: 0 <= j < k ==> !IsNextCandidate(events[j], now))
    ensures r.None? <==> forall k :: 0 <= k < |events| ==> !IsNextCandidate(events[k], now)
  {
    if events == [] then None
    else if IsNextCandidate(events[0], now) then Some(events[0])
    else
      var r := NextMeeting(events[1..], now);
      assert forall k :: 1 <= k < |events| ==> events[k] == events[1..][k - 1];
      r
  }

  /** GetNextMeeting: a fetch failure is passed on, otherwise the first match. */
  function GetNextMeeting(fetched: Result<seq<Event>, string>, now: int): (r: Result<Option<Event>, string>)
    ensures fetched.Failure? ==> r == Failure(fetched.error)
    ensures fetched.Success? ==> r.Success? && (r.value.Some? ==> r.value.value in fetched.value)
  {
    match fetched
    case Failure(err) => Failure(err)
    case Success(events) => Success(NextMeeting(events, now))
  }

  /**
   * What GetNextMeeting returns is never an event starting exactly now, and
   * for a well-formed event it is never past.
   */
  lemma NextMeetingNotNowNotPast(events: seq<Event>, now: int)
    ensures NextMeeting(events, now).Some? ==> NextMeeting(events, now).value.start != now
    ensures NextMeeting(events, now).Some? && WellFormed(NextMeeting(events, now).value)
      ==> GetStatus(NextMeeting(events, now).value, now) != Past
  {
  }

  /**
   * An event that starts exactly now is urgent for GetStatus yet skipped by
   * GetNextMeeting: the two strict comparisons disagree at that instant.
   */
  lemma NextMeetingSkipsStartingNow(e: Event, rest: seq<Event>, now: int)
    requires e.start == now && e.start < e.end
    ensures GetStatus(e, now) == Urgent
    ensures NextMeeting([e] + rest, now) == NextMeeting(rest, now)
  {
    assert ([e] + rest)[1..] == rest;
  }
}

=== FILE: click.dfy ===
/**
 * The click command (cmd/click.go): its own copy of the best-event selector,
 * the error classifier isAuthError, the command that opens a meeting link,
 * and the decision between opening a meeting, forcing a token refresh and
 * re-authenticating.
 *
 * The widget, the calendar services and the fetch of upcoming events are
 * inputs: what creating each of them returned. Running the shell command and
 * the re-authentication flow are not part of this model; the outcome names
 * what would be run.
 */
module Click {
  import opened Wrappers
  import opened Text
  import opened Calendar
  import opened Selection
  import opened Waybar
  import Auth

  /**
   * The tier loop of selectBestEventForClick, a second formulation of the
   * widget's: the tiers are visited by position, and each tier runs its two
   * scans directly instead of through TierPick.
   */
  function ClickSearch(events: seq<Event>, now: int, blocking: Event -> bool, t: nat): (r: Option<Event>)
    requires t <= |Priority|
    ensures r.Some? ==> r.value in events && GetStatus(r.value, now) in Priority[t..]
    decreases |Priority| - t
  {
    if t == |Priority| then None
    else
      var first := Scan(events, now, blocking, Priority[t], true, 0);
      if first.Some? then first
      else
        var second := Scan(events, now, blocking, Priority[t], false, 0);
        if second.Some? then second else ClickSearch(events, now, blocking, t + 1)
  }

  /** selectBestEventForClick: nothing for no events; otherwise an input that is not past. */
  function SelectBestEventForClick(events: seq<Event>, now: int, blocking: Event -> bool): (r: Option<Event>)
    ensures |events| == 0 ==> r.None?
    ensures r.Some? ==> r.value in events && GetStatus(r.value, now) != Past
  {
    if |events| == 0 then None else ClickSearch(events, now, blocking, 0)
  }

  /** From any tier on, the positional loop agrees with the widget's tier loop. */
  lemma {:induction false} ClickSearchAgrees(events: seq<Event>, now: int, blocking: Event -> bool, t: nat)
    requires t <= |Priority|
    ensures ClickSearch(events, now, blocking, t) == SearchTiers(events, now, blocking, Priority[t..])
    decreases |Priority| - t
  {
    if t < |Priority| {
      ClickSearchAgrees(events, now, blocking, t + 1);
      assert Priority[t..][0] == Priority[t] && Priority[t..][1..] == Priority[t + 1..];
    }
  }

  /** The click handler and the status bar always pick the same event. */
  lemma ClickSelectorEquivalent(events: seq<Event>, now: int, blocking: Event -> bool)
    ensures SelectBestEventForClick(events, now, blocking) == SelectBestEvent(events, now, blocking)
  {
    ClickSearchAgrees(events, now, blocking, 0);
    assert Priority[0..] == Priority;
  }

  /** isAuthError: the lower-cased message names authentication, a token, a login or an unauthorised request. */
  function IsAuthError(err: Option<string>): (r: bool)
    ensures err.None? ==> !r
  {
    match err
    case None => false
    case Some(msg) =>
      var lower := ToLower(msg);
      Contains(lower, "authentication") || Contains(lower, "token")
      || Contains(lower, "login") || Contains(lower, "unauthorized")
  }

  /** The word has no upper-case ASCII letter. */
  predicate NoUpper(w: string)
  {
    forall i :: 0 <= i < |w| ==> !('A' <= w[i] <= 'Z')
  }

  lemma LowerFixed(w: string)
    requires NoUpper(w)
    ensures ToLower(w) == w
  {
  }

  /** Every message the status bar reports as "Auth Required" is an auth error for the click handler too. */
  lemma WidgetAuthImpliesClickAuth(msg: string)
    requires WidgetAuthCheck(msg)
    ensures IsAuthError(Some(msg))
  {
    if Contains(msg, "authentication") {
      LowerFixed("authentication");
      ContainsToLower(msg, "authentication");
    } else if Contains(msg, "token") {
      LowerFixed("token");
      ContainsToLower(msg, "token");
    } else {
      LowerFixed("login");
      ContainsToLower(msg, "login");
    }
  }

  /**
   * The converse fails: the click handler lower-cases and also knows
   * "unauthorized", so a message such as "Unauthorized" is an auth error for
   * it but not for the status bar.
   */
  lemma ClassifiersDisagree(msg: string)
    requires Contains(ToLower(msg), "unauthorized")
    requires 'c' !in msg && 'k' !in msg && 'g' !in msg
    ensures IsAuthError(Some(msg)) && !WidgetAuthCheck(msg)
  {
    MissingByteNotContained(msg, "authentication", 8);
    MissingByteNotContained(msg, "token", 2);
    MissingByteNotContained(msg, "login", 2);
  }

  /** "Unauthorized" is such a message. */
  lemma UnauthorizedDisagrees()
    ensures IsAuthError(Some("Unauthorized")) && !WidgetAuthCheck("Unauthorized")
  {
    var msg := "Unauthorized";
    var lower := ToLower(msg);
    assert lower[0] == 'u' && lower[1..] == msg[1..];
    assert "unauthorized" <= lower;
    ClassifiersDisagree(msg);
  }

  /**
   * The error a cache-only token request returns, however it is wrapped by
   * the callers, is an auth error for both classifiers.
   */
  lemma AuthRequiredIsAuthError(prefix: string, suffix: string)
    ensures WidgetAuthCheck(prefix + Auth.AuthRequiredMessage + suffix)
    ensures IsAuthError(Some(prefix + Auth.AuthRequiredMessage + suffix))
  {
    var rest := " required: no valid cached token" + " and interactive login disabled";
    assert prefix + Auth.AuthRequiredMessage + suffix == prefix + "authentication" + (rest + suffix);
    ContainsFactor(prefix, "authentication", rest + suffix);
    WidgetAuthImpliesClickAuth(prefix + Auth.AuthRequiredMessage + suffix);
  }

  /** The link a click opens: only for a current or urgent choice, and only if openMeeting would find one. */
  function ClickTarget(best: Option<Event>, now: int): (r: Option<string>)
    ensures r.Some? <==> best.Some? && GetStatus(best.value, now) in {Current, Urgent} && MeetingURL(best.value).Success?
    ensures r.Some? ==> r.value == MeetingURL(best.value).value
  {
    if best.None? then None
    else
      var e := best.value;
      var status := GetStatus(e, now);
      if status == Current || status == Urgent then
        if e.isTeams && e.teamsLink != "" then Some(e.teamsLink)
        else if e.webLink != "" then Some(e.webLink)
        else None
      else None
  }

  /** The first part of the command that tries the Teams application first. */
  const TeamsFirstPrefix: string := "sh -c 'xdg-open \"msteams://\"" + " 2>/dev/null && sleep 1" + " && xdg-open \""

  /**
   * openMeetingLink: the shell command line run for a link. The Teams-first
   * command is chosen exactly for links into teams.microsoft.com and falls
   * back to the browser; any other link is opened by plain xdg-open. Either
   * command passes the link quoted.
   */
  function OpenMeetingLink(url: string): (cmd: string)
    ensures TeamsFirstPrefix <= cmd <==> Contains(url, "teams.microsoft.com")
    ensures Contains(cmd, "\"" + url + "\"")
    ensures !Contains(url, "teams.microsoft.com") ==> cmd == "xdg-open \"" + url + "\""
    ensures Contains(url, "teams.microsoft.com") ==>
      var fallback := " || xdg-open \"" + url + "\"'";
      |fallback| <= |cmd| && cmd[|cmd| - |fallback|..] == fallback
  {
    if Contains(url, "teams.microsoft.com") then
      TeamsCommandShape(url);
      TeamsFirstPrefix + url + "\" || xdg-open \"" + url + "\"'"
    else
      BrowserCommandShape(url);
      "xdg-open \"" + url + "\""
  }

  /** The Teams-first command starts with its prefix, holds the quoted link and ends with the browser fallback. */
  lemma TeamsCommandShape(url: string)
    ensures var cmd := TeamsFirstPrefix + url + "\" || xdg-open \"" + url + "\"'";
      var fallback := " || xdg-open \"" + url + "\"'";
      && TeamsFirstPrefix <= cmd
      && Contains(cmd, "\"" + url + "\"")
      && |fallback| <= |cmd| && cmd[|cmd| - |fallback|..] == fallback
  {
    var cmd := TeamsFirstPrefix + url + "\" || xdg-open \"" + url + "\"'";
    var head := "sh -c 'xdg-open \"msteams://\"" + " 2>/dev/null && sleep 1" + " && xdg-open ";
    var quoted := "\"" + url + "\"";
    var tail := " || xdg-open \"" + url + "\"'";
    assert cmd == TeamsFirstPrefix + (url + "\"" + tail);
    assert cmd == (head + quoted) + tail;
    assert cmd[|cmd| - |tail|..] == tail;
    ContainsFactor(head, quoted, tail);
  }

  /** The plain command does not start like the Teams-first one and holds the quoted link. */
  lemma BrowserCommandShape(url: string)
    ensures var cmd := "xdg-open \"" + url + "\"";
      !(TeamsFirstPrefix <= cmd) && Contains(cmd, "\"" + url + "\"")
  {
    var cmd := "xdg-open \"" + url + "\"";
    var quoted := "\"" + url + "\"";
    assert cmd[0] == 'x' && TeamsFirstPrefix[0] == 's';
    assert cmd == "xdg-open " + quoted + "";
    ContainsFactor("xdg-open ", quoted, "");
  }

  /** What one attempt saw: creating the widget, creating the calendar service, fetching the upcoming events. */
  datatype ClickRound = ClickRound(widgetError: Option<string>, serviceError: Option<string>, fetched: Result<seq<Event>, string>)

  /** What the click handler ends up doing. */
  datatype ClickOutcome =
    | Open(command: string) // run the command that opens the meeting
    | Reauth                // run the re-authentication flow
    | Nothing               // leave the widget as it is

  /** The end of both attempts: open the chosen event's link, or do nothing. */
  function ActOn(events: seq<Event>, now: int, blocking: Event -> bool): (r: ClickOutcome)
    ensures r != Reauth
    ensures r.Open? <==> ClickTarget(SelectBestEvent(events, now, blocking), now).Some?
    ensures r.Open? ==>
      && GetStatus(SelectBestEvent(events, now, blocking).value, now) in {Current, Urgent}
      && r.command == OpenMeetingLink(MeetingURL(SelectBestEvent(events, now, blocking).value).value)
  {
    ClickSelectorEquivalent(events, now, blocking);
    match ClickTarget(SelectBestEventForClick(events, now, blocking), now)
    case Some(url) => Open(OpenMeetingLink(url))
    case None => Nothing
  }

  /** When no event is current or urgent, a click opens nothing. */
  lemma SoonOrLaterOpensNothing(events: seq<Event>, now: int, blocking: Event -> bool)
    requires forall k :: 0 <= k < |events| ==> GetStatus(events[k], now) !in {Current, Urgent}
    ensures ActOn(events, now, blocking) == Nothing
  {
    SelectBestChoice(events, now, blocking);
  }

  /**
   * runClickWithForceRefresh. A failure to create the widget or the
   * refreshing service leads to re-authentication, and so does a fetch that
   * still fails with an auth error; any other fetch failure does nothing.
   */
  function RunClickWithForceRefresh(round: ClickRound, now: int, blocking: Event -> bool): (r: ClickOutcome)
    ensures r == Reauth <==> round.widgetError.Some? || round.serviceError.Some?
                             || (round.fetched.Failure? && IsAuthError(Some(round.fetched.error)))
    ensures r.Open? ==>
      && round.widgetError.None? && round.serviceError.None? && round.fetched.Success?
      && r == ActOn(round.fetched.value, now, blocking)
  {
    if round.widgetError.Some? then Reauth
    else if round.serviceError.Some? then Reauth
    else match round.fetched
      case Failure(err) => if IsAuthError(Some(err)) then Reauth else Nothing
      case Success(events) => ActOn(events, now, blocking)
  }

  /**
   * runClick. A non-interactive attempt first; an auth error from the
   * service or the fetch switches to the forced-refresh attempt, any other
   * error does nothing.
   */
  function RunClick(first: ClickRound, retry: ClickRound, now: int, blocking: Event -> bool): (r: ClickOutcome)
    ensures first.widgetError.Some? ==> r == Reauth
    ensures first.widgetError.None? && first.serviceError.Some? ==>
      r == (if IsAuthError(first.serviceError) then RunClickWithForceRefresh(retry, now, blocking) else Nothing)
    ensures first.widgetError.None? && first.serviceError.None? && first.fetched.Failure? ==>
      r == (if IsAuthError(Some(first.fetched.error)) then RunClickWithForceRefresh(retry, now, blocking) else Nothing)
    ensures first.widgetError.None? && first.serviceError.None? && first.fetched.Success? ==>
      r == ActOn(first.fetched.value, now, blocking)
    ensures r.Open? ==> exists events :: ActOn(events, now, blocking) == r
  {
    if first.widgetError.Some? then Reauth
    else if first.serviceError.Some? then
      if IsAuthError(first.serviceError) then RunClickWithForceRefresh(retry, now, blocking) else Nothing
    else match first.fetched
      case Failure(err) =>
        if IsAuthError(Some(err)) then RunClickWithForceRefresh(retry, now, blocking) else Nothing
      case Success(events) => ActOn(events, now, blocking)
  }
}

=== FILE: durations.dfy ===
/** Go's time.Duration units. Instants and durations are integers counting nanoseconds. */
module Durations {
  const Minute: int := 60_000_000_000
  const Hour: int := 3_600_000_000_000
}

=== FILE: pango.dfy ===
/**
 * escapePangoMarkup (internal/widget/widget.go): the three chained
 * ReplaceAll calls that make a subject safe inside Pango markup.
 */
module Pango {
  import opened Text

  /** The three ReplaceAll calls in source order: '&' first, then '<', then '>'. */
  function EscapePangoMarkup(s: string): (r: string)
    ensures '<' !in r && '>' !in r
  {
    ReplaceByte(ReplaceByte(ReplaceByte(s, '&', "&amp;"), '<', "&lt;"), '>', "&gt;")
  }

  /** The entity a single byte becomes. */
  function EscapeByte(c: char): string
  {
    if c == '&' then "&amp;" else if c == '<' then "&lt;" else if c == '>' then "&gt;" else [c]
  }

  /** Reference definition: every byte replaced by its entity in one pass. */
  function EscapeEach(s: string): string
  {
    if s == [] then [] else EscapeByte(s[0]) + EscapeEach(s[1..])
  }

  /** The inverse: decode the three entities, keep every other byte. */
  function Unescape(s: string): string
  {
    if s == [] then []
    else if "&amp;" <= s then "&" + Unescape(s[5..])
    else if "&lt;" <= s then "<" + Unescape(s[4..])
    else if "&gt;" <= s then ">" + Unescape(s[4..])
    else [s[0]] + Unescape(s[1..])
  }

  lemma {:induction false} ReplaceByteAppend(a: string, b: string, c: char, rep: string)
    ensures ReplaceByte(a + b, c, rep) == ReplaceByte(a, c, rep) + ReplaceByte(b, c, rep)
    decreases |a|
  {
    if a != [] {
      var head := if a[0] == c then rep else [a[0]];
      assert (a + b)[0] == a[0] && (a + b)[1..] == a[1..] + b;
      calc {
        ReplaceByte(a + b, c, rep);
        head + ReplaceByte(a[1..] + b, c, rep);
        { ReplaceByteAppend(a[1..], b, c, rep); }
        head + (ReplaceByte(a[1..], c, rep) + ReplaceByte(b, c, rep));
        (head + ReplaceByte(a[1..], c, rep)) + ReplaceByte(b, c, rep);
      }
    } else {
      assert a + b == b;
    }
  }

  /** The escape of a concatenation is the concatenation of the escapes. */
  lemma EscapeAppend(a: string, b: string)
    ensures EscapePangoMarkup(a + b) == EscapePangoMarkup(a) + EscapePangoMarkup(b)
  {
    var a1, b1 := ReplaceByte(a, '&', "&amp;"), ReplaceByte(b, '&', "&amp;");
    ReplaceByteAppend(a, b, '&', "&amp;");
    var a2, b2 := ReplaceByte(a1, '<', "&lt;"), ReplaceByte(b1, '<', "&lt;");
    ReplaceByteAppend(a1, b1, '<', "&lt;");
    ReplaceByteAppend(a2, b2, '>', "&gt;");
  }

  /** A single byte escapes to its entity. */
  lemma EscapeSingle(c: char)
    ensures EscapePangoMarkup([c]) == EscapeByte(c)
  {
    var r1 := ReplaceByte([c], '&', "&amp;");
    assert r1 == (if c == '&' then "&amp;" else [c]) by {
      assert [c][0] == c && ReplaceByte([c][1..], '&', "&amp;") == [];
    }
    var r2 := ReplaceByte(r1, '<', "&lt;");
    if c == '<' {
      assert r2 == "&lt;" by { assert r1[1..] == []; }
      assert ReplaceByte(r2, '>', "&gt;") == r2 by { ReplaceByteAbsent(r2, '>', "&gt;"); }
    } else {
      ReplaceByteAbsent(r1, '<', "&lt;");
      if c == '>' {
        assert ReplaceByte(r2, '>', "&gt;") == "&gt;" by { assert r2[1..] == []; }
      } else {
        ReplaceByteAbsent(r2, '>', "&gt;");
      }
    }
  }

  lemma {:induction false} ReplaceByteAbsent(s: string, c: char, rep: string)
    requires c !in s
    ensures ReplaceByte(s, c, rep) == s
    decreases |s|
  {
    if s != [] {
      ReplaceByteAbsent(s[1..], c, rep);
    }
  }

  /**
   * Because '&' is replaced first, the '&' that the later passes introduce is
   * never escaped again: the chain equals the one-pass escape.
   */
  lemma {:induction false} EscapeIsOnePass(s: string)
    ensures EscapePangoMarkup(s) == EscapeEach(s)
    decreases |s|
  {
    if s != [] {
      assert s == [s[0]] + s[1..];
      EscapeAppend([s[0]], s[1..]);
      EscapeSingle(s[0]);
      EscapeIsOnePass(s[1..]);
    }
  }

  /** Decoding an escaped byte followed by anything decodes the byte first. */
  lemma UnescapeStep(c: char, rest: string)
    ensures Unescape(EscapeByte(c) + rest) == [c] + Unescape(rest)
  {
    var s := EscapeByte(c) + rest;
    if c == '&' {
      assert "&amp;" <= s && s[5..] == rest;
    } else if c == '<' {
      assert !("&amp;" <= s) by { assert s[1] == 'l'; }
      assert "&lt;" <= s && s[4..] == rest;
    } else if c == '>' {
      assert !("&amp;" <= s) by { assert s[1] == 'g'; }
      assert !("&lt;" <= s) by { assert s[1] == 'g'; }
      assert "&gt;" <= s && s[4..] == rest;
    } else {
      assert s[0] == c && s[1..] == rest;
    }
  }

  /** Round trip: escaping loses nothing and never double-escapes. */
  lemma {:induction false} UnescapeEscape(s: string)
    ensures Unescape(EscapePangoMarkup(s)) == s
    decreases |s|
  {
    EscapeIsOnePass(s);
    if s != [] {
      UnescapeStep(s[0], EscapeEach(s[1..]));
      UnescapeEscape(s[1..]);
      EscapeIsOnePass(s[1..]);
      assert s == [s[0]] + s[1..];
    }
  }

  /** Each '&' grows by four bytes, each '<' and '>' by three; all else is kept. */
  lemma {:induction false} EscapeLength(s: string)
    ensures |EscapePangoMarkup(s)| == |s| + 4 * Count(s, '&') + 3 * Count(s, '<') + 3 * Count(s, '>')
    decreases |s|
  {
    EscapeIsOnePass(s);
    if s != [] {
      EscapeLength(s[1..]);
      EscapeIsOnePass(s[1..]);
    }
  }
}

=== FILE: selection.dfy ===
/**
 * selectBestEvent (internal/widget/widget.go): pick the single most relevant
 * event of a list. Tiers are visited in the order current, urgent, soon,
 * upcoming; within a tier a first scan takes only blocking events and a
 * second scan takes any event; past events are never chosen.
 *
 * IsBlockingEvent is not part of this model: it is the parameter `blocking`,
 * about which nothing is assumed.
 */
module Selection {
  import opened Wrappers
  import opened Calendar

  /** The tiers in the order the selector visits them. */
  const Priority: seq<Status> := [Current, Urgent, Soon, Upcoming]

  /** The position of a status in Priority; past comes after every tier. */
  function Rank(s: Status): (r: nat)
    ensures r <= 4
    ensures s != Past ==> r < |Priority| && Priority[r] == s
    ensures s == Past <==> r == 4
  {
    match s
    case Current => 0
    case Urgent => 1
    case Soon => 2
    case Upcoming => 3
    case Past => 4
  }

  /**
   * The test one iteration of a scan applies: the status matches the tier,
   * the event is blocking when the scan asks for it, and an upcoming event
   * must start strictly after now.
   */
  predicate Accepts(e: Event, now: int, blocking: Event -> bool, tier: Status, blockingOnly: bool)
  {
    GetStatus(e, now) == tier && (!blockingOnly || blocking(e))
    && !(tier == Upcoming && !(e.start > now))
  }

  /** The extra upcoming guard never rejects an event: the tier already implies it. */
  lemma UpcomingGuardRedundant(e: Event, now: int, blocking: Event -> bool, tier: Status, blockingOnly: bool)
    ensures Accepts(e, now, blocking, tier, blockingOnly)
        <==> GetStatus(e, now) == tier && (!blockingOnly || blocking(e))
  {
  }

  /** One scan of the event list from index i on, stopping at the first accepted event. */
  function Scan(events: seq<Event>, now: int, blocking: Event -> bool, tier: Status, blockingOnly: bool, i: nat): (r: Option<Event>)
    requires i <= |events|
    ensures r.Some? ==> exists k :: (i <= k < |events| && events[k] == r.value
                                      && Accepts(events[k], now, blocking, tier, blockingOnly)
                                      && forall j :: i <= j < k ==> !Accepts(events[j], now, blocking, tier, blockingOnly))
    ensures r.None? <==> forall k :: i <= k < |events| ==> !Accepts(events[k], now, blocking, tier, blockingOnly)
    decreases |events| - i
  {
    if i == |events| then None
    else if Accepts(events[i], now, blocking, tier, blockingOnly) then Some(events[i])
    else Scan(events, now, blocking, tier, blockingOnly, i + 1)
  }

  /** Some event of the list has the given status. */
  predicate Present(events: seq<Event>, now: int, tier: Status)
  {
    exists k :: 0 <= k < |events| && GetStatus(events[k], now) == tier
  }

  /**
   * The event a tier yields: the first blocking one if there is one,
   * otherwise the first one of the tier.
   */
  predicate IsTierChoice(events: seq<Event>, now: int, blocking: Event -> bool, tier: Status, e: Event)
  {
    exists k :: (0 <= k < |events| && events[k] == e && GetStatus(e, now) == tier
                 && if exists j :: 0 <= j < |events| && GetStatus(events[j], now) == tier && blocking(events[j])
                    then blocking(e) && forall j :: 0 <= j < k ==> !(GetStatus(events[j], now) == tier && blocking(events[j]))
                    else forall j :: 0 <= j < k ==> GetStatus(events[j], now) != tier)
  }

  /** Both scans of one tier: blocking events first, then any event. */
  function TierPick(events: seq<Event>, now: int, blocking: Event -> bool, tier: Status): (r: Option<Event>)
    ensures r.None? <==> !Present(events, now, tier)
    ensures r.Some? ==> IsTierChoice(events, now, blocking, tier, r.value)
  {
    var first := Scan(events, now, blocking, tier, true, 0);
    if first.Some? then first else Scan(events, now, blocking, tier, false, 0)
  }

  /** The outer loop over the tiers, returning the first tier's pick. */
  function SearchTiers(events: seq<Event>, now: int, blocking: Event -> bool, tiers: seq<Status>): (r: Option<Event>)
    ensures r.Some? ==> r.value in events && GetStatus(r.value, now) in tiers
  {
    if tiers == [] then None
    else
      var pick := TierPick(events, now, blocking, tiers[0]);
      if pick.Some? then pick else SearchTiers(events, now, blocking, tiers[1..])
  }

  /** selectBestEvent: nothing for no events; otherwise a tier pick, never a past event. */
  function SelectBestEvent(events: seq<Event>, now: int, blocking: Event -> bool): (r: Option<Event>)
    ensures |events| == 0 ==> r.None?
    ensures r.Some? ==> r.value in events && GetStatus(r.value, now) != Past
  {
    if |events| == 0 then None else SearchTiers(events, now, blocking, Priority)
  }

  /** The tier loop returns the pick of the first tier that is present, and nothing if none is. */
  lemma {:induction false} SearchTiersFirstPresent(events: seq<Event>, now: int, blocking: Event -> bool, tiers: seq<Status>)
    ensures SearchTiers(events, now, blocking, tiers).None?
        <==> forall t :: 0 <= t < |tiers| ==> !Present(events, now, tiers[t])
    ensures SearchTiers(events, now, blocking, tiers).Some? ==>
      exists t :: (0 <= t < |tiers| && Present(events, now, tiers[t])
                   && (forall u :: 0 <= u < t ==> !Present(events, now, tiers[u]))
                   && SearchTiers(events, now, blocking, tiers) == TierPick(events, now, blocking, tiers[t]))
  {
    if tiers != [] {
      var rest := tiers[1..];
      SearchTiersFirstPresent(events, now, blocking, rest);
      var pick := TierPick(events, now, blocking, tiers[0]);
      if pick.Some? {
        assert SearchTiers(events, now, blocking, tiers) == TierPick(events, now, blocking, tiers[0]);
        assert Present(events, now, tiers[0]);
      } else {
        assert SearchTiers(events, now, blocking, tiers) == SearchTiers(events, now, blocking, rest);
        assert forall t :: 1 <= t < |tiers| ==> tiers[t] == rest[t - 1];
        if SearchTiers(events, now, blocking, rest).Some? {
          var t :| 0 <= t < |rest| && Present(events, now, rest[t])
                   && (forall u :: 0 <= u < t ==> !Present(events, now, rest[u]))
                   && SearchTiers(events, now, blocking, rest) == TierPick(events, now, blocking, rest[t]);
          assert tiers[t + 1] == rest[t];
          forall u | 0 <= u < t + 1
            ensures !Present(events, now, tiers[u])
          {
            if u > 0 {
              assert tiers[u] == rest[u - 1];
            }
          }
        }
      }
    }
  }

  /** The selector yields nothing exactly when every event is past (in particular for no events). */
  lemma SelectBestNoneIffAllPast(events: seq<Event>, now: int, blocking: Event -> bool)
    ensures SelectBestEvent(events, now, blocking).None?
        <==> forall k :: 0 <= k < |events| ==> GetStatus(events[k], now) == Past
  {
    if |events| > 0 {
      SearchTiersFirstPresent(events, now, blocking, Priority);
      if SelectBestEvent(events, now, blocking).None? {
        forall k | 0 <= k < |events| ensures GetStatus(events[k], now) == Past {
          var s := GetStatus(events[k], now);
          if s != Past {
            assert Present(events, now, Priority[Rank(s)]);
          }
        }
      }
    }
  }

  /**
   * The chosen event is one of the inputs, is not past, comes from the first
   * tier that any input belongs to, and is that tier's pick (first blocking
   * event of the tier, else the first event of the tier).
   */
  lemma SelectBestChoice(events: seq<Event>, now: int, blocking: Event -> bool)
    ensures SelectBestEvent(events, now, blocking).Some? ==>
      var e := SelectBestEvent(events, now, blocking).value;
      && e in events
      && GetStatus(e, now) != Past
      && IsTierChoice(events, now, blocking, GetStatus(e, now), e)
      && forall k :: 0 <= k < |events| && GetStatus(events[k], now) != Past
           ==> Rank(GetStatus(e, now)) <= Rank(GetStatus(events[k], now))
  {
    if |events| > 0 {
      SearchTiersFirstPresent(events, now, blocking, Priority);
      var r := SelectBestEvent(events, now, blocking);
      if r.Some? {
        var t :| 0 <= t < |Priority| && Present(events, now, Priority[t])
                 && (forall u :: 0 <= u < t ==> !Present(events, now, Priority[u]))
                 && r == TierPick(events, now, blocking, Priority[t]);
        var e := r.value;
        assert GetStatus(e, now) == Priority[t] && Rank(Priority[t]) == t;
        forall k | 0 <= k < |events| && GetStatus(events[k], now) != Past
          ensures Rank(GetStatus(e, now)) <= Rank(GetStatus(events[k], now))
        {
          var s := GetStatus(events[k], now);
          assert Present(events, now, Priority[Rank(s)]);
        }
      }
    }
  }

  /** A tier holding a blocking event yields a blocking event. */
  lemma SelectBestPrefersBlocking(events: seq<Event>, now: int, blocking: Event -> bool)
    ensures SelectBestEvent(events, now, blocking).Some? ==>
      var e := SelectBestEvent(events, now, blocking).value;
      (exists j :: 0 <= j < |events| && GetStatus(events[j], now) == GetStatus(e, now) && blocking(events[j]))
        ==> blocking(e)
  {
    SelectBestChoice(events, now, blocking);
  }
}

=== FILE: text.dfy ===
/**
 * The parts of Go's strings and fmt packages that the widget relies on.
 *
 * A Go string is a sequence of bytes and len(s) counts bytes. In this model
 * every char of a Dafny `string` stands for one byte, so |s| is Go's len(s)
 * and s[..n] is Go's s[:n]. Non-ASCII text (the status emoji) is written as
 * the bytes of its UTF-8 encoding.
 */
module Text {

  /** strings.Contains(s, w): w occurs somewhere in s. */
  function Contains(s: string, w: string): bool
    decreases |s|
  {
    w <= s || (|s| > 0 && Contains(s[1..], w))
  }

  /** strings.ReplaceAll(s, [c], rep) for a one-byte pattern. */
  function ReplaceByte(s: string, c: char, rep: string): (r: string)
    ensures c !in rep ==> c !in r
    ensures forall x :: x in r ==> x in s || x in rep
  {
    if s == [] then [] else (if s[0] == c then rep else [s[0]]) + ReplaceByte(s[1..], c, rep)
  }

  /** The number of occurrences of byte c in s. */
  function Count(s: string, c: char): nat
  {
    if s == [] then 0 else (if s[0] == c then 1 else 0) + Count(s[1..], c)
  }

  /** unicode.ToLower restricted to ASCII bytes. */
  function LowerByte(c: char): char
  {
    if 'A' <= c <= 'Z' then (c as int + 32) as char else c
  }

  /** strings.ToLower, byte by byte over ASCII. */
  function ToLower(s: string): (r: string)
    ensures |r| == |s|
  {
    seq(|s|, i requires 0 <= i < |s| => LowerByte(s[i]))
  }

  /** strings.Join(lines, sep). */
  function Join(lines: seq<string>, sep: string): string
  {
    if |lines| == 0 then ""
    else if |lines| == 1 then lines[0]
    else lines[0] + sep + Join(lines[1..], sep)
  }

  function DigitChar(d: nat): char
    requires d < 10
  {
    "0123456789"[d]
  }

  /** fmt.Sprintf("%d", n) for a non-negative n. */
  function Decimal(n: nat): (r: string)
    ensures |r| >= 1
  {
    if n < 10 then [DigitChar(n)] else Decimal(n / 10) + [DigitChar(n % 10)]
  }

  function Min(a: int, b: int): int
  {
    if a <= b then a else b
  }

  lemma {:induction false} ContainsSuffix(s: string, w: string, k: nat)
    requires k <= |s| && Contains(s[k..], w)
    ensures Contains(s, w)
    decreases k
  {
    if k > 0 {
      assert s[1..][k - 1..] == s[k..];
      ContainsSuffix(s[1..], w, k - 1);
    }
  }

  /** w occurs in any string that has w as a factor. */
  lemma ContainsFactor(a: string, w: string, b: string)
    ensures Contains(a + w + b, w)
  {
    var s := a + w + b;
    assert w <= s[|a|..];
    ContainsSuffix(s, w, |a|);
  }

  /** Lower-casing keeps every occurrence of an already lower-case word. */
  lemma {:induction false} ContainsToLower(s: string, w: string)
    requires Contains(s, w) && ToLower(w) == w
    ensures Contains(ToLower(s), w)
    decreases |s|
  {
    if w <= s {
      forall i | 0 <= i < |w| ensures ToLower(s)[i] == w[i] {
        assert ToLower(w)[i] == LowerByte(w[i]);
      }
      assert w <= ToLower(s);
    } else {
      ContainsToLower(s[1..], w);
      assert ToLower(s)[1..] == ToLower(s[1..]);
    }
  }

  /** A word holding a byte the text lacks does not occur in the text. */
  lemma {:induction false} MissingByteNotContained(s: string, w: string, i: nat)
    requires i < |w| && w[i] !in s
    ensures !Contains(s, w)
    decreases |s|
  {
    assert i < |s| ==> s[i] != w[i];
    if |s| > 0 {
      MissingByteNotContained(s[1..], w, i);
    }
  }

  /** Two-digit numbers print as two bytes. */
  lemma DecimalTwoDigits(n: nat)
    requires 10 <= n < 100
    ensures |Decimal(n)| == 2
  {
    assert Decimal(n) == Decimal(n / 10) + [DigitChar(n % 10)];
  }
}

=== FILE: waybar.dfy ===
/**
 * The status-bar output of internal/widget/widget.go: the one-line text with
 * its class, the schedule tooltips, the extended tooltip, the choice of link
 * for the open action and the branches of one status-bar run.
 *
 * Clock and date formatting and the terminal styles are not part of this
 * model; they are the functions of a Renderer, about which nothing is assumed.
 */
module Waybar {
  import opened Wrappers
  import opened Durations
  import opened Text
  import opened Calendar
  import opened Selection
  import opened Pango

  /** The UTF-8 bytes of the emoji the widget prints. */
  const RedCircle: string := "\U{F0}\U{9F}\U{94}\U{B4}"
  const YellowCircle: string := "\U{F0}\U{9F}\U{9F}\U{A1}"
  const GreenCircle: string := "\U{F0}\U{9F}\U{9F}\U{A2}"
  const BlueCircle: string := "\U{F0}\U{9F}\U{94}\U{B5}"
  const BlackCircle: string := "\U{E2}\U{9A}\U{AB}"
  const CalendarIcon: string := "\U{F0}\U{9F}\U{93}\U{85}"
  const BulbIcon: string := "\U{F0}\U{9F}\U{92}\U{A1}"
  const LinkIcon: string := "\U{F0}\U{9F}\U{94}\U{97}"
  const GlobeIcon: string := "\U{F0}\U{9F}\U{8C}\U{90}"
  const CrystalBallIcon: string := "\U{F0}\U{9F}\U{94}\U{AE}"

  /** The longest text, in bytes, that is shown without truncation. */
  const MaxText: int := 50

  /** The indicator of each status; every one starts with a non-ASCII byte. */
  function Icon(s: Status): (r: string)
    ensures |r| == if s == Past then 3 else 4
    ensures r[0] != '['
  {
    match s
    case Urgent => RedCircle
    case Soon => YellowCircle
    case Current => GreenCircle
    case Upcoming => BlueCircle
    case Past => BlackCircle
  }

  /** The JSON object printed for the status bar; `className` is the "class" key. */
  datatype WaybarOutput = WaybarOutput(text: string, tooltip: string, className: string, alt: string)

  /** Opaque formatting collaborators. */
  datatype Renderer = Renderer(
    clock: int -> string,         // Format("15:04")
    date: int -> string,          // Format("2006-01-02")
    nextDay: int -> int,          // AddDate(0, 0, 1)
    dayAndClock: int -> string,   // Format("Mon 2/1 15:04")
    titleStyle: string -> string, // titleStyle.Render
    timeStyle: string -> string)  // timeStyle.Render

  /** "in Nm" under an hour, "in HhMm" from an hour on (whole minutes and hours, truncated). */
  function InDuration(d: nat): (r: string)
    ensures d < Hour ==> r == "in " + Decimal(d / Minute) + "m"
    ensures d >= Hour ==> r == "in " + Decimal(d / Hour) + "h" + Decimal((d / Minute) % 60) + "m"
  {
    if d < Hour then "in " + Decimal(d / Minute) + "m"
    else "in " + Decimal(d / Hour) + "h" + Decimal((d / Minute) % 60) + "m"
  }

  /**
   * The two numbers of the duration text mean what they say: under an hour
   * the minute count is below 60; from an hour on, the hours and the
   * remaining minutes together make up the whole minutes, and the remaining
   * minutes are below 60. From ten minutes to an hour the text is 6 bytes.
   */
  lemma InDurationParts(d: nat)
    ensures d < Hour ==> d / Minute < 60
    ensures d >= Hour ==> (d / Hour) * 60 + (d / Minute) % 60 == d / Minute && (d / Minute) % 60 < 60
    ensures 10 * Minute <= d < Hour ==> |InDuration(d)| == 6
  {
    assert Hour == 60 * Minute;
    if 10 * Minute <= d < Hour {
      assert 10 <= d / Minute < 60;
      DecimalTwoDigits(d / Minute);
    }
  }

  /**
   * The text of a current, urgent, soon or past meeting: the indicator, a
   * space and the subject, cut to 45 bytes and "..." when over 50 bytes.
   * The slice is in bounds because the indicator and space take at most 5 bytes.
   */
  function ShortText(status: Status, subject: string): (r: string)
    requires status != Upcoming
    ensures |r| <= MaxText + 3
    ensures Icon(status) + " " <= r
    ensures |Icon(status)| + 1 + |subject| <= MaxText ==> r == Icon(status) + " " + subject
  {
    var full := Icon(status) + " " + subject;
    if |full| > MaxText then Icon(status) + " " + subject[..45] + "..." else full
  }

  /** The untruncated text of an upcoming meeting: subject then "(in ...)". */
  function UpcomingFull(subject: string, d: nat): (r: string)
    ensures |r| == |BlueCircle| + 1 + |subject| + 2 + |InDuration(d)| + 1
    ensures BlueCircle + " " + subject <= r
  {
    BlueCircle + " " + subject + " (" + InDuration(d) + ")"
  }

  /**
   * The upcoming branch as written: subject[:40] runs when the text is over
   * 50 bytes, whether or not the subject has 40 bytes. None is Go's
   * "slice bounds out of range" panic.
   */
  function UpcomingTextAsWritten(subject: string, d: nat): (r: Option<string>)
    ensures r.None? <==> |UpcomingFull(subject, d)| > MaxText && |subject| < 40
    ensures r.Some? ==> r.value == UpcomingText(subject, d)
  {
    var full := UpcomingFull(subject, d);
    if |full| > MaxText then
      if |subject| < 40 then None else Some(BlueCircle + " " + subject[..40] + "...")
    else Some(full)
  }

  /**
   * The upcoming branch as evidently intended: cut the subject to at most 40
   * bytes. The text then never exceeds 50 bytes.
   */
  function UpcomingText(subject: string, d: nat): (r: string)
    ensures |r| <= MaxText
    ensures BlueCircle + " " <= r
    ensures |UpcomingFull(subject, d)| <= MaxText ==> r == UpcomingFull(subject, d)
  {
    var full := UpcomingFull(subject, d);
    if |full| > MaxText then BlueCircle + " " + subject[..Min(40, |subject|)] + "..." else full
  }

  /**
   * Every subject of 37 to 39 bytes makes the upcoming branch panic while the
   * meeting is between 15 minutes and an hour away: " (in NNm)" adds 9 bytes.
   */
  lemma UpcomingTruncationPanics(subject: string, d: nat)
    requires 37 <= |subject| < 40 && 15 * Minute < d < Hour
    ensures UpcomingTextAsWritten(subject, d).None?
  {
    assert 15 <= d / Minute < 60;
    DecimalTwoDigits(d / Minute);
    assert |UpcomingFull(subject, d)| == |subject| + 14;
  }

  /** A concrete upcoming meeting whose status-bar text panics as written. */
  lemma UpcomingPanicExample(now: int)
    ensures var subject := seq(37, _ => 'x');
            var e := Event(subject, now + 20 * Minute, now + 50 * Minute, "", "", "", false, "", [], "");
            && GetStatus(e, now) == Upcoming
            && EscapePangoMarkup(e.subject) == e.subject
            && UpcomingTextAsWritten(EscapePangoMarkup(e.subject), TimeUntil(e, now)).None?
  {
    var subject := seq(37, _ => 'x');
    ReplaceByteAbsent(subject, '&', "&amp;");
    ReplaceByteAbsent(subject, '<', "&lt;");
    ReplaceByteAbsent(subject, '>', "&gt;");
    UpcomingTruncationPanics(subject, 20 * Minute);
  }

  /** The status-bar text of a meeting before the Teams prefix. */
  function DisplayText(status: Status, subject: string, d: int): (r: string)
    requires status == Upcoming ==> d >= 0
    ensures |r| <= MaxText + 3
    ensures Icon(status) + " " <= r
    ensures status != Upcoming ==> r == ShortText(status, subject)
    ensures status == Upcoming ==> r == UpcomingText(subject, d)
  {
    if status == Upcoming then UpcomingText(subject, d) else ShortText(status, subject)
  }

  const NoMeetingOutput: WaybarOutput := WaybarOutput("No meetings", "", "no-meeting", "no-meeting")

  /**
   * What generateWaybarOutput returns: class and alt are the status label,
   * no tooltip, and the text is the status text behind "[T] " for Teams.
   */
  function BaseOutput(meeting: Option<Event>, now: int): (out: WaybarOutput)
    ensures meeting.None? ==> out == NoMeetingOutput
    ensures meeting.Some? ==>
      var s := GetStatus(meeting.value, now);
      && out.className == Label(s) && out.alt == Label(s) && out.tooltip == ""
      && (meeting.value.isTeams <==> "[T] " <= out.text)
      && |out.text| <= MaxText + 3 + (if meeting.value.isTeams then 4 else 0)
      && out.text == (if meeting.value.isTeams then "[T] " else "")
                     + DisplayText(s, EscapePangoMarkup(meeting.value.subject), TimeUntil(meeting.value, now))
  {
    match meeting
    case None => NoMeetingOutput
    case Some(m) =>
      var s := GetStatus(m, now);
      var text := DisplayText(s, EscapePangoMarkup(m.subject), TimeUntil(m, now));
      assert text[0] == Icon(s)[0];
      assert !("[T] " <= text) by { assert text[0] != '['; }
      assert "[T] " <= "[T] " + text;
      WaybarOutput((if m.isTeams then "[T] " else "") + text, "", Label(s), Label(s))
  }

  /** generateWaybarOutput, step by step: the switch on the status, then the Teams prefix. */
  method GenerateWaybarOutput(meeting: Option<Event>, now: int) returns (out: WaybarOutput)
    ensures out == BaseOutput(meeting, now)
  {
    if meeting.None? {
      return NoMeetingOutput;
    }
    var m := meeting.value;
    var status := GetStatus(m, now);
    var timeUntil := TimeUntil(m, now);
    var text;
    var subject := EscapePangoMarkup(m.subject);
    if status == Upcoming {
      var duration;
      if timeUntil < Hour {
        duration := "in " + Decimal(timeUntil / Minute) + "m";
      } else {
        duration := "in " + Decimal(timeUntil / Hour) + "h" + Decimal((timeUntil / Minute) % 60) + "m";
      }
      text := BlueCircle + " " + subject + " (" + duration + ")";
      if |text| > MaxText {
        text := BlueCircle + " " + subject[..Min(40, |subject|)] + "...";
      }
    } else {
      // the urgent, soon, current and past cases differ only in the indicator
      text := Icon(status) + " " + subject;
      if |text| > MaxText {
        text := Icon(status) + " " + subject[..45] + "...";
      }
    }
    assert text == DisplayText(status, subject, timeUntil);
    if m.isTeams {
      text := "[T] " + text;
    }
    out := WaybarOutput(text, "", Label(status), Label(status));
  }

  /**
   * A schedule title: escaped subject, then " (Teams)" for a Teams meeting or
   * " @ " and the escaped location for another meeting with a location.
   */
  function ScheduleTitle(e: Event): (r: string)
    ensures '<' !in r && '>' !in r
    ensures e.isTeams ==> r == EscapePangoMarkup(e.subject) + " (Teams)"
    ensures !e.isTeams && e.location != ""
      ==> r == EscapePangoMarkup(e.subject) + " @ " + EscapePangoMarkup(e.location)
    ensures !e.isTeams && e.location == "" ==> r == EscapePangoMarkup(e.subject)
  {
    var title := EscapePangoMarkup(e.subject);
    var title := if e.isTeams then title + " (Teams)" else title;
    if e.location != "" && !e.isTeams then title + " @ " + EscapePangoMarkup(e.location) else title
  }

  /** One tooltip line of the schedule: indicator, "HH:MM-HH:MM" and title. */
  function ScheduleLine(e: Event, now: int, r: Renderer): (line: string)
    ensures Icon(GetStatus(e, now)) + " " <= line
    ensures |line| >= |ScheduleTitle(e)| && line[|line| - |ScheduleTitle(e)|..] == ScheduleTitle(e)
  {
    Icon(GetStatus(e, now)) + " " + r.clock(e.start) + "-" + r.clock(e.end) + " " + ScheduleTitle(e)
  }

  /** One schedule line per event, in input order. */
  function EventLines(events: seq<Event>, now: int, r: Renderer): (lines: seq<string>)
    ensures |lines| == |events|
    ensures forall i :: 0 <= i < |events| ==> lines[i] == ScheduleLine(events[i], now, r)
  {
    seq(|events|, i requires 0 <= i < |events| => ScheduleLine(events[i], now, r))
  }

  const ScheduleHeader: seq<string> := [CalendarIcon + " Today's Schedule:", ""]

  /** The loop shared by both schedule tooltips: append one line per event. */
  method AppendScheduleLines(lines: seq<string>, events: seq<Event>, now: int, r: Renderer)
    returns (out: seq<string>)
    ensures out == lines + EventLines(events, now, r)
  {
    out := lines;
    for i := 0 to |events|
      invariant out == lines + EventLines(events[..i], now, r)
    {
      assert events[..i + 1] == events[..i] + [events[i]];
      out := out + [ScheduleLine(events[i], now, r)];
    }
    assert events[..|events|] == events;
  }

  /** The lines of generateTooltipForSchedule. */
  function ScheduleTooltipLines(events: seq<Event>, now: int, r: Renderer): (lines: seq<string>)
    ensures |lines| == 2 + (if |events| == 0 then 1 else |events|)
    ensures lines[..2] == ScheduleHeader
  {
    ScheduleHeader + if |events| == 0 then ["No meetings today"] else EventLines(events, now, r)
  }

  /** Two header lines, then "No meetings today" or one line per event in input order. */
  lemma ScheduleTooltipShape(events: seq<Event>, now: int, r: Renderer)
    ensures var lines := ScheduleTooltipLines(events, now, r);
      && lines[..2] == ScheduleHeader
      && (|events| == 0 ==> lines == ScheduleHeader + ["No meetings today"])
      && (|events| > 0 ==>
            |lines| == 2 + |events| && forall i :: 0 <= i < |events| ==> lines[2 + i] == ScheduleLine(events[i], now, r))
  {
  }

  /** generateTooltipForSchedule. */
  method GenerateTooltipForSchedule(events: seq<Event>, now: int, r: Renderer) returns (tooltip: string)
    ensures tooltip == Join(ScheduleTooltipLines(events, now, r), "\n")
  {
    var lines := ScheduleHeader;
    if |events| == 0 {
      lines := lines + ["No meetings today"];
    } else {
      lines := AppendScheduleLines(lines, events, now, r);
    }
    tooltip := Join(lines, "\n");
  }

  /** The closing hint of the schedule tooltip of a chosen meeting. */
  function ClickHints(display: Event): seq<string>
  {
    ["", BulbIcon + " Click to open meeting link",
     if display.isTeams then LinkIcon + " Teams meeting - will open directly in Teams"
     else GlobeIcon + " Will open in browser"]
  }

  /** The tooltip lines of generateWaybarOutputForSchedule; the hints follow a non-empty schedule only. */
  function ChosenTooltipLines(display: Event, events: seq<Event>, now: int, r: Renderer): (lines: seq<string>)
    ensures |lines| >= 3 && lines[..2] == ScheduleHeader
    ensures |events| == 0 ==> lines == ScheduleHeader + ["No meetings today"]
    ensures |events| > 0 ==>
      && |lines| == |events| + 5
      && (forall i :: 0 <= i < |events| ==> lines[2 + i] == ScheduleLine(events[i], now, r))
      && lines[|events| + 2] == ""
      && lines[|lines| - 2] == BulbIcon + " Click to open meeting link"
      && (display.isTeams <==> lines[|lines| - 1] == LinkIcon + " Teams meeting - will open directly in Teams")
      && lines[|lines| - 1] == (if display.isTeams then LinkIcon + " Teams meeting - will open directly in Teams"
                                else GlobeIcon + " Will open in browser")
  {
    ScheduleHeader + if |events| == 0 then ["No meetings today"] else EventLines(events, now, r) + ClickHints(display)
  }

  const NoMeetingsTodayOutput: WaybarOutput :=
    WaybarOutput("No meetings today", "No meetings scheduled for today", "no-meeting", "no-meeting")

  /** generateWaybarOutputForSchedule: the base output of the chosen meeting with the day's schedule as tooltip. */
  method GenerateWaybarOutputForSchedule(display: Option<Event>, events: seq<Event>, now: int, r: Renderer)
    returns (out: WaybarOutput)
    ensures display.None? ==> out == NoMeetingsTodayOutput
    ensures display.Some? ==>
      out == BaseOutput(display, now).(tooltip := Join(ChosenTooltipLines(display.value, events, now, r), "\n"))
  {
    if display.None? {
      return NoMeetingsTodayOutput;
    }
    var base := GenerateWaybarOutput(display, now);
    var lines := ScheduleHeader;
    if |events| == 0 {
      lines := lines + ["No meetings today"];
    } else {
      lines := AppendScheduleLines(lines, events, now, r);
      ghost var listed := lines;
      lines := lines + [""];
      lines := lines + [BulbIcon + " Click to open meeting link"];
      if display.value.isTeams {
        lines := lines + [LinkIcon + " Teams meeting - will open directly in Teams"];
      } else {
        lines := lines + [GlobeIcon + " Will open in browser"];
      }
      assert lines == listed + ClickHints(display.value);
      assert lines == ScheduleHeader + (EventLines(events, now, r) + ClickHints(display.value));
    }
    assert lines == ChosenTooltipLines(display.value, events, now, r);
    out := base.(tooltip := Join(lines, "\n"));
  }

  /** A title of the extended tooltip: like ScheduleTitle but not escaped. */
  function PlainTitle(e: Event): (title: string)
    ensures e.subject <= title
    ensures e.isTeams ==> title == e.subject + " (Teams)"
    ensures !e.isTeams ==> title == if e.location != "" then e.subject + " @ " + e.location else e.subject
  {
    var title := if e.isTeams then e.subject + " (Teams)" else e.subject;
    if e.location != "" && !e.isTeams then title + " @ " + e.location else title
  }

  /** A line of today's part of the extended tooltip. */
  function TodayLine(e: Event, now: int, r: Renderer): (line: string)
    ensures Icon(GetStatus(e, now)) + " " <= line
    ensures |line| >= |PlainTitle(e)| && line[|line| - |PlainTitle(e)|..] == PlainTitle(e)
  {
    Icon(GetStatus(e, now)) + " " + r.timeStyle(r.clock(e.start) + "-" + r.clock(e.end)) + " " + PlainTitle(e)
  }

  /** "15:04" for today, "Tomorrow 15:04" for tomorrow, "Mon 2/1 15:04" otherwise. */
  function DayLabel(start: int, now: int, r: Renderer): (shown: string)
    ensures r.date(start) == r.date(now) ==> shown == r.clock(start)
    ensures r.date(start) != r.date(now) && r.date(start) == r.date(r.nextDay(now))
      ==> shown == "Tomorrow " + r.clock(start)
    ensures r.date(start) != r.date(now) && r.date(start) != r.date(r.nextDay(now))
      ==> shown == r.dayAndClock(start)
  {
    if r.date(start) == r.date(now) then r.clock(start)
    else if r.date(start) == r.date(r.nextDay(now)) then "Tomorrow " + r.clock(start)
    else r.dayAndClock(start)
  }

  /** A line of the upcoming part of the extended tooltip. */
  function UpcomingLine(e: Event, now: int, r: Renderer): (line: string)
    ensures Icon(GetStatus(e, now)) + " " <= line
    ensures |line| >= |PlainTitle(e)| && line[|line| - |PlainTitle(e)|..] == PlainTitle(e)
  {
    Icon(GetStatus(e, now)) + " " + r.timeStyle(DayLabel(e.start, now, r)) + " " + PlainTitle(e)
  }

  /** The extended tooltip lists at most this many upcoming events. */
  const MaxListed: nat := 5

  /** The line that replaces the upcoming events beyond the fifth. */
  function MoreLine(n: nat): string
    requires n > MaxListed
  {
    "... and " + Decimal(n - MaxListed) + " more events"
  }

  /** The upcoming part of the extended tooltip. */
  function UpcomingSection(upcoming: seq<Event>, now: int, r: Renderer): (sec: seq<string>)
    ensures |upcoming| == 0 ==> sec == ["No upcoming meetings"]
    ensures 1 <= |sec| <= MaxListed + 1
  {
    if |upcoming| == 0 then ["No upcoming meetings"]
    else
      UpcomingLines(upcoming[..Min(|upcoming|, MaxListed)], now, r)
      + if |upcoming| > MaxListed then [MoreLine(|upcoming|)] else []
  }

  /** One line per upcoming event, in input order. */
  function UpcomingLines(upcoming: seq<Event>, now: int, r: Renderer): (lines: seq<string>)
    ensures |lines| == |upcoming|
    ensures forall i :: 0 <= i < |upcoming| ==> lines[i] == UpcomingLine(upcoming[i], now, r)
  {
    seq(|upcoming|, i requires 0 <= i < |upcoming| => UpcomingLine(upcoming[i], now, r))
  }

  /**
   * At most five upcoming events are listed, first to fifth in input order,
   * and a sixth line counts the rest exactly when there are more than five.
   */
  lemma UpcomingSectionShape(upcoming: seq<Event>, now: int, r: Renderer)
    ensures var sec := UpcomingSection(upcoming, now, r);
      && |sec| == (if |upcoming| == 0 then 1 else if |upcoming| <= MaxListed then |upcoming| else MaxListed + 1)
      && (forall i :: 0 <= i < Min(|upcoming|, MaxListed) ==> sec[i] == UpcomingLine(upcoming[i], now, r))
      && (|upcoming| > MaxListed ==> sec[MaxListed] == MoreLine(|upcoming|))
  {
  }

  /** The lines of renderExtendedTooltip. */
  function ExtendedLines(today: seq<Event>, upcoming: seq<Event>, now: int, r: Renderer): (lines: seq<string>)
    ensures var n := 2 + (if |today| == 0 then 1 else |today|);
      && |lines| == n + 3 + |UpcomingSection(upcoming, now, r)|
      && lines[0] == r.titleStyle(CalendarIcon + " Today's Schedule")
      && lines[1] == ""
      && lines[2..n] == (if |today| == 0 then ["No meetings today"] else TodayLines(today, now, r))
      && lines[n] == "" && lines[n + 2] == ""
      && lines[n + 1] == r.titleStyle(CrystalBallIcon + " Upcoming Events")
      && lines[n + 3..] == UpcomingSection(upcoming, now, r)
  {
    var head := [r.titleStyle(CalendarIcon + " Today's Schedule"), ""];
    var todayPart := if |today| == 0 then ["No meetings today"] else TodayLines(today, now, r);
    var lines := head + todayPart + ["", r.titleStyle(CrystalBallIcon + " Upcoming Events"), ""]
                 + UpcomingSection(upcoming, now, r);
    assert lines[2..2 + |todayPart|] == todayPart;
    lines
  }

  /** One line per event of today, in input order. */
  function TodayLines(today: seq<Event>, now: int, r: Renderer): (lines: seq<string>)
    ensures |lines| == |today|
    ensures forall i :: 0 <= i < |today| ==> lines[i] == TodayLine(today[i], now, r)
  {
    seq(|today|, i requires 0 <= i < |today| => TodayLine(today[i], now, r))
  }

  /** The loop over today's events in renderExtendedTooltip. */
  method AppendTodayLines(lines: seq<string>, today: seq<Event>, now: int, r: Renderer)
    returns (out: seq<string>)
    ensures out == lines + TodayLines(today, now, r)
  {
    out := lines;
    for i := 0 to |today|
      invariant out == lines + TodayLines(today[..i], now, r)
    {
      assert today[..i + 1] == today[..i] + [today[i]];
      out := out + [TodayLine(today[i], now, r)];
    }
    assert today[..|today|] == today;
  }

  /** The loop over the upcoming events in renderExtendedTooltip, leaving after the fifth. */
  method AppendUpcomingLines(lines: seq<string>, upcoming: seq<Event>, now: int, r: Renderer)
    returns (out: seq<string>)
    requires |upcoming| > 0
    ensures out == lines + UpcomingSection(upcoming, now, r)
  {
    out := lines;
    var i := 0;
    while i < |upcoming|
      invariant 0 <= i <= |upcoming| && i <= MaxListed
      invariant out == lines + UpcomingLines(upcoming[..i], now, r)
    {
      if i >= MaxListed {
        assert i == MaxListed && Min(|upcoming|, MaxListed) == MaxListed;
        assert UpcomingSection(upcoming, now, r) == UpcomingLines(upcoming[..MaxListed], now, r) + [MoreLine(|upcoming|)];
        out := out + [MoreLine(|upcoming|)];
        return;
      }
      assert upcoming[..i + 1] == upcoming[..i] + [upcoming[i]];
      out := out + [UpcomingLine(upcoming[i], now, r)];
      i := i + 1;
    }
    assert |upcoming| <= MaxListed && Min(|upcoming|, MaxListed) == |upcoming|;
    assert upcoming[..|upcoming|] == upcoming;
    assert UpcomingSection(upcoming, now, r) == UpcomingLines(upcoming, now, r);
  }

  /** renderExtendedTooltip. */
  method RenderExtendedTooltip(today: seq<Event>, upcoming: seq<Event>, now: int, r: Renderer)
    returns (tooltip: string)
    ensures tooltip == Join(ExtendedLines(today, upcoming, now, r), "\n")
  {
    var lines := [r.titleStyle(CalendarIcon + " Today's Schedule"), ""];
    ghost var head := lines;
    ghost var todayPart := if |today| == 0 then ["No meetings today"] else TodayLines(today, now, r);
    if |today| == 0 {
      lines := lines + ["No meetings today"];
    } else {
      lines := AppendTodayLines(lines, today, now, r);
    }
    ghost var withToday := lines;
    lines := lines + [""];
    lines := lines + [r.titleStyle(CrystalBallIcon + " Upcoming Events")];
    lines := lines + [""];
    ghost var middle := lines;
    assert middle == withToday + ["", r.titleStyle(CrystalBallIcon + " Upcoming Events"), ""];
    if |upcoming| == 0 {
      lines := lines + ["No upcoming meetings"];
    } else {
      lines := AppendUpcomingLines(lines, upcoming, now, r);
    }
    assert lines == head + todayPart + ["", r.titleStyle(CrystalBallIcon + " Upcoming Events"), ""]
                    + UpcomingSection(upcoming, now, r);
    tooltip := Join(lines, "\n");
  }

  /** The widget's own, case-sensitive test for an authentication failure. */
  predicate WidgetAuthCheck(msg: string)
  {
    Contains(msg, "authentication") || Contains(msg, "token") || Contains(msg, "login")
  }

  const AuthErrorOutput: WaybarOutput := WaybarOutput("Auth Error", "Failed to create calendar service", "error", "auth-error")
  const AuthRequiredOutput: WaybarOutput := WaybarOutput("Auth Required", "Click to authenticate", "error", "auth-required")

  /** The output for a failed fetch of the upcoming events. */
  function FetchErrorOutput(msg: string): (out: WaybarOutput)
    ensures out.className == "error"
    ensures WidgetAuthCheck(msg) <==> out == AuthRequiredOutput
    ensures !WidgetAuthCheck(msg) ==> out.text == "Calendar Error" && out.alt == "error" && out.tooltip == msg
  {
    if WidgetAuthCheck(msg) then AuthRequiredOutput
    else WaybarOutput("Calendar Error", msg, "error", "error")
  }

  /**
   * One status-bar run (RunWaybarWithRefresh). The calendar service and the
   * two fetches are inputs: whether the force-refresh service could be
   * created, the upcoming events or the fetch error, and today's events or
   * their error (which the code ignores, treating it as no events).
   */
  method RunWaybarWithRefresh(forceRefresh: bool, refreshServiceFails: bool,
                              upcoming: Result<seq<Event>, string>, todays: Result<seq<Event>, string>,
                              now: int, blocking: Event -> bool, r: Renderer)
    returns (out: WaybarOutput)
    ensures forceRefresh && refreshServiceFails ==> out == AuthErrorOutput
    ensures !(forceRefresh && refreshServiceFails) && upcoming.Failure? ==> out == FetchErrorOutput(upcoming.error)
    ensures !(forceRefresh && refreshServiceFails) && upcoming.Success? ==>
      var today := if todays.Success? then todays.value else [];
      var best := SelectBestEvent(upcoming.value, now, blocking);
      if best.None? then
        out == WaybarOutput("No upcoming meetings", Join(ScheduleTooltipLines(today, now, r), "\n"), "no-meeting", "no-meeting")
      else
        out == BaseOutput(best, now).(tooltip := Join(ChosenTooltipLines(best.value, today, now, r), "\n"))
  {
    if forceRefresh && refreshServiceFails {
      return AuthErrorOutput;
    }
    if upcoming.Failure? {
      return FetchErrorOutput(upcoming.error);
    }
    var today := if todays.Success? then todays.value else [];
    var displayEvent := SelectBestEvent(upcoming.value, now, blocking);
    if displayEvent.None? {
      var tooltip := GenerateTooltipForSchedule(today, now, r);
      return WaybarOutput("No upcoming meetings", tooltip, "no-meeting", "no-meeting");
    }
    out := GenerateWaybarOutputForSchedule(displayEvent, today, now, r);
  }

  /** The link openMeeting opens: the Teams link of a Teams meeting, else the web link. */
  function MeetingURL(e: Event): (r: Result<string, string>)
    ensures r.Success? ==> r.value != "" && (r.value == e.teamsLink || r.value == e.webLink)
    ensures e.isTeams && e.teamsLink != "" ==> r == Success(e.teamsLink)
    ensures r.Failure? <==> (!e.isTeams || e.teamsLink == "") && e.webLink == ""
  {
    if e.isTeams && e.teamsLink != "" then Success(e.teamsLink)
    else if e.webLink != "" then Success(e.webLink)
    else Failure("no link available for meeting")
  }

  /** openMeeting: the command line started for the link on each platform. */
  function OpenMeeting(e: Event, goos: string): (r: Result<seq<string>, string>)
    ensures MeetingURL(e).Failure? ==> r == Failure(MeetingURL(e).error)
    ensures r.Success? ==> MeetingURL(e).Success? && |r.value| >= 2 && r.value[|r.value| - 1] == MeetingURL(e).value
    ensures MeetingURL(e).Success? ==> (r.Success? <==> goos in {"linux", "windows", "darwin"})
  {
    match MeetingURL(e)
    case Failure(err) => Failure(err)
    case Success(url) =>
      if goos == "linux" then Success(["xdg-open", url])
      else if goos == "windows" then Success(["rundll32", "url.dll,FileProtocolHandler", url])
      else if goos == "darwin" then Success(["open", url])
      else Failure("unsupported platform")
  }
}

=== FILE: wrappers.dfy ===
/** Option and Result, the shapes of Go's nil pointers and (value, error) pairs. */
module Wrappers {

  /** A Go pointer that may be nil. */
  datatype Option<+T> = None | Some(value: T)

  /** A Go (value, error) pair: exactly one of the two is meaningful. */
  datatype Result<+T, +E> = Success(value: T) | Failure(error: E)
}
